=== FILE: README.md ===
# CarGo client core in Dafny

A model of the pure logic inside the CarGo car-rental web client. It covers four areas:

- **Booking form.** The form derives a rental interval from the picked dates, the half-hour clock marks and the booking type. It prices that interval by whole started days or hours, gates on the availability verdict, validates, and decides whether a payment order may be requested.
- **Admin car form.** The add and edit pages share a field-by-field validator, an image-URL rule and a comma-separated feature-list codec. The edit page also maps a stored car into the form and reports load failures.
- **List-page filters.** Four pages keep their filters in the address bar: the public car list, the admin car list, the admin booking list and "my bookings". Each page reads its filters on load, changes one filter (which resets the page), pages, clears, and writes the filters back as query parameters.
- **Booking status display.** The cancel predicate, the status and type labels, the badge colour, the duration unit and the load-error message.

Modelling choices:

- Instants are integer milliseconds and days are a uniform 86 400 000 ms.
- Clock inputs are the 48 grid marks.
- Numeric form inputs are `Option<int>`, where `None` is an empty or non-numeric input.
- A JavaScript object is its list of entries in insertion order.
- Network replies become inputs: the availability verdict, an HTTP status, an error body.
- The current time and the current year are parameters.

The modules follow the source files:

- `DateUtils`: the date helpers.
- `TimeGrid`: the clock grid and how it is parsed back.
- `BookingForm`: the booking page.
- `CarForm`: the validator, codec and change handler shared by the admin car pages.
- `AddCar` and `EditCar`: the admin car pages themselves.
- `Filters` and `Numbers`: what the list pages share, including `parseInt` and `String(n)`.
- `CarsPage`, `AdminCarsPage`, `AdminBookingsPage` and `MyBookingsPage`: one module per list page.
- `BookingDetails`: the booking status display.
- `Strings`: the JavaScript string primitives the pages use, and the decimal digits that `Number` and `parseInt` read.

Two behaviours of the booking form look unintended: a superseded availability verdict can still enable payment, and a daily booking whose two pickers hold the same instant passes the range check but is priced at zero days. The model keeps both as written, shows each with a lemma, and gives a corrected recalculation next to it that changes nothing else (see "## Findings"). The other booking-form lemmas describe the page as written.

## Model

| member | source | states |
|---|---|---|
| DateUtils.CeilUnits | client/src/utils/dateUtils.js:26-27 | `Math.ceil(span / unit)` of a non-negative span is the least whole count covering it: `span <= n*unit`, `(n-1)*unit < span`, and 0 exactly for an empty span |
| DateUtils.DaysBetween | client/src/utils/dateUtils.js:23-28 | days between two instants is the ceiling of their absolute difference over 86 400 000 ms; 0 iff the instants are equal |
| DateUtils.HoursBetween | client/src/utils/dateUtils.js:30-35 | hours between two instants is the ceiling of their absolute difference over 3 600 000 ms; 0 iff the instants are equal |
| DateUtils.CeilUnitsUnique | client/src/utils/dateUtils.js:27 | the ceiling bounds determine the count: any count meeting them equals the computed one |
| DateUtils.BetweenSymmetric | client/src/utils/dateUtils.js:23-35 | both counts are unchanged when start and end are swapped (`Math.abs`) |
| DateUtils.HoursExamples | client/src/utils/dateUtils.js:30-35 | 30 minutes count as 1 hour and 90 minutes as 2; a 25-hour span counts as 25 hours (also backwards) and as 2 days |
| DateUtils.WholeDays | client/src/utils/dateUtils.js:23-35 | a span of exactly k days counts as k days and 24k hours |
| DateUtils.IsDateInPast | client/src/utils/dateUtils.js:19-21 | a date is in the past iff it is strictly before the current instant, which is a parameter |
| TimeGrid.SlotMinutesOfDay | client/src/pages/BookingForm.js:129-133 | grid mark k is 30k minutes after midnight, i.e. hour k/2 and minute 30·(k mod 2) |
| TimeGrid.PadTwo | client/src/pages/BookingForm.js:131-132 | `padStart(2, '0')` of a number below 100 is two decimal digits |
| TimeGrid.GenerateTimeOptions | client/src/pages/BookingForm.js:127-137 | the option list has exactly 48 entries and entry k is "HH:MM" with hour k/2 and minute 30·(k mod 2) |
| TimeGrid.PadTwoValue | client/src/pages/BookingForm.js:76-79 | `Number` of a two-digit padded string gives back the number |
| TimeGrid.ParseClock | client/src/pages/BookingForm.js:76-79 | `split(':').map(Number)`: a string without ':' gives no clock (one field only); a written label gives back its hour and minute (TimeGrid.ParseClockLabel) |
| TimeGrid.ParseClockLabel | client/src/pages/BookingForm.js:76-79 | `split(':').map(Number)` of a written clock label gives back its hour and minute |
| TimeGrid.SlotLabelsParseBack | client/src/pages/BookingForm.js:127-137 | every option parses back to its own hour and minute; options are strictly ascending in time of day and pairwise distinct |
| TimeGrid.DefaultTimesOnGrid | client/src/pages/BookingForm.js:27-28 | the initial "09:00" and "17:00" are grid marks 18 and 34 |
| BookingForm.SetClock | client/src/pages/BookingForm.js:77-83 | `setHours` keeps the calendar day and sets the time of day |
| BookingForm.InstantOrder | client/src/pages/BookingForm.js:87 | instants compare as (day, time of day) pairs compare |
| BookingForm.Normalize | client/src/pages/BookingForm.js:71-84 | hourly: each picked day at its clock mark with zero seconds; daily: start day at 00:00:00.000 and end day at 23:59:59.999, ignoring the clocks |
| BookingForm.NormalizedRangeValid | client/src/pages/BookingForm.js:87-93 | the range check passes for daily iff end day ≥ start day, and for hourly iff the end day is later or the same day has a later end mark |
| BookingForm.InitialState | client/src/pages/BookingForm.js:25-37 | no dates, "09:00"–"17:00", daily, amount 0, not available, not busy |
| BookingForm.CarLoaded | client/src/pages/BookingForm.js:46-48 | loading the car makes its location the default pickup and dropoff and changes nothing else |
| BookingForm.Recalculate | client/src/pages/BookingForm.js:61-107 | missing car or date: zero amount and duration, unavailable, no request; inverted interval: same with the range message; valid: request for the interval, daily duration from raw dates × price per day, hourly from the interval × price per hour, verdict left as it was; only the priced fields change |
| BookingForm.ReceiveAvailability | client/src/pages/BookingForm.js:110-121 | the reply's `available` is copied unchanged; a failed request means unavailable with the retry message |
| BookingForm.RunEffect | client/src/pages/BookingForm.js:61-121 | the whole effect (recalculate, then take the reply when a request was made) changes only the amount, the duration, the message and the verdict; the car is available afterwards only if a request was made and the reply said available |
| BookingForm.SubmitEnabled | client/src/pages/BookingForm.js:474 | the button is enabled iff the form is not busy and `validateForm` would raise neither the availability error nor the amount error |
| BookingForm.ValidateForm | client/src/pages/BookingForm.js:139-168 | each of the seven error keys is present iff its own check fails (missing date read as the epoch in the range check, blank locations after trim, no verdict, amount ≤ 0) |
| BookingForm.HandleSubmit | client/src/pages/BookingForm.js:217-236 | an order is requested iff validation reports no error; the request carries the form's inputs (dates as calendar days, clock labels) and marks the form busy |
| BookingForm.OrderFailureMessage | client/src/pages/BookingForm.js:246 | the toast is the server message when non-empty; otherwise the first validation message when non-empty; otherwise, and when there is no error body, "Failed to initiate payment."; never empty |
| BookingForm.OrderFailed | client/src/pages/BookingForm.js:248 | a failed order request only clears the busy flag |
| BookingForm.AvailabilityOnlyFromReply | client/src/pages/BookingForm.js:61-121 | after the effect the car is available iff inputs were complete, the interval valid and the reply said available |
| BookingForm.EffectThenValidate | client/src/pages/BookingForm.js:61-168 | after the effect on complete inputs with filled locations, the form validates iff the interval is valid, the reply said available and the amount is positive |
| BookingForm.SameDayDailyUnbookable | client/src/pages/BookingForm.js:80-107 | a daily booking with identical picker instants passes the range check yet is priced 0, so it can neither be submitted nor validated |
| BookingForm.DailyExample | client/src/pages/BookingForm.js:98-100 | days 19875 to 19877 at 1000 a day give duration 2 and amount 2000 |
| BookingForm.HourlyExample | client/src/pages/BookingForm.js:101-103 | same day "09:00" to "09:30" is charged as one hour |
| BookingForm.ValidFormCanSubmit | client/src/pages/BookingForm.js:474 | a form that validates and is not busy has its submit button enabled |
| BookingForm.EnabledButRejected | client/src/pages/BookingForm.js:217-222 | the button can be enabled while validation fails (blank pickup); submit then requests nothing |
| BookingForm.StaleVerdictKeepsSubmitEnabled | client/src/pages/BookingForm.js:106-121 | after the end date moves, the old interval's "available" verdict still enables submit before any reply for the new interval |
| BookingForm.DailyIntervalDays | client/src/pages/BookingForm.js:80-84 | the daily interval runs from the start day's 00:00:00.000 to the end day's 23:59:59.999, so its day count is end day − start day + 1 |
| BookingForm.RecalculateCorrected | client/src/pages/BookingForm.js:61-107 | corrected recalculation: the same request as the page's, and every new request clears the verdict, so submit is disabled until the reply; every accepted interval has a duration of at least one; wherever the page's duration is at least one the state is the page's with the verdict cleared, and only a daily booking with identical picker instants is re-priced, to one day |
| BookingForm.RunEffectCorrected | client/src/pages/BookingForm.js:61-121 | with the corrected recalculation, submit is enabled only when the inputs are complete, a request was made for the form's current interval and its reply said available |
| BookingForm.CorrectedClearsStaleVerdict | client/src/pages/BookingForm.js:106-121 | on the stale-verdict example, moving the end date disables submit; an "available" reply for the new interval enables it again, at the page's own 2000 for two days |
| BookingForm.CorrectedSameDayDailyBookable | client/src/pages/BookingForm.js:98-100 | a same-day daily booking is priced one day and can be submitted once the car is reported available |
| Strings.BlankIffTrimEmpty | client/src/pages/admin/AddCar.js:43 | `!s.trim()` holds exactly for strings of whitespace only |
| Strings.Trim | client/src/pages/admin/AddCar.js:43 | `trim()` leaves no whitespace at either end (what it returns: Strings.TrimSlice) |
| Strings.TrimSlice | client/src/pages/admin/AddCar.js:43 | `trim()` returns a contiguous piece of the string with only whitespace before and after it |
| Strings.TrimAddsNothing | client/src/pages/admin/AddCar.js:89 | trimming adds no character the string lacks (a comma-free string stays comma-free) |
| Strings.TrimDropsLeadingWhitespace | client/src/pages/admin/AddCar.js:89 | whitespace in front of a non-empty trimmed string is exactly what `trim()` removes |
| Strings.Split | client/src/pages/admin/AddCar.js:89 | `split(sep)` gives at least one part and no part holds the separator |
| Strings.SplitAfterPrefix | client/src/pages/admin/AddCar.js:89 | a string whose first separator follows `a` splits into `a` and the split of the rest |
| Strings.SplitWithoutSeparator | client/src/pages/admin/AddCar.js:89 | a string without the separator splits into itself alone |
| Strings.Join | client/src/pages/admin/EditCar.js:57 | `join(sep)` begins with the first element (what it returns: Strings.SplitJoin, Strings.JoinSplit) |
| Strings.JoinSplit | client/src/pages/admin/EditCar.js:57 | splitting and joining on the same separator give back the string |
| Strings.SplitJoin | client/src/pages/admin/EditCar.js:57 | joining separator-free strings and splitting the result on the same separator gives back the list |
| Strings.Capitalize | client/src/pages/BookingDetails.js:96 | `charAt(0).toUpperCase() + slice(1)`: same length, first character upper-cased, the rest unchanged |
| Strings.Utf16Length | client/src/pages/admin/AddCar.js:67 | `length` counts UTF-16 units: between the code-point count and twice it, equal for BMP-only text |
| CarForm.Set | client/src/pages/admin/AddCar.js:31-34 | `{ ...formData, [name]: value }` sets the named field and leaves every other field unchanged |
| CarForm.Validate | client/src/pages/admin/AddCar.js:41-71 | the error map has an entry for exactly the validated fields whose rule fails, each with that rule's message; all failures are collected |
| CarForm.ValidateTextFields | client/src/pages/admin/AddCar.js:43-45 | title, brand, model and location get an error iff blank after trim |
| CarForm.ValidateNumberFields | client/src/pages/admin/AddCar.js:46-60 | year error iff missing/non-numeric or outside 1990..currentYear+1; prices must be present and > 0; mileage present and ≥ 0; seats in 2..8 |
| CarForm.ValidateImage | client/src/pages/admin/AddCar.js:61-65 | image error iff blank or failing `^https?://\S+\.(png\|jpe?g\|gif\|svg\|webp)$` (case-insensitive); "required" iff blank, format message iff not blank |
| CarForm.ImageUrlOk | client/src/pages/admin/AddCar.js:63 | the image pattern: "http://" or "https://" in any case, then a path ending in "." and an allowed extension; an accepted URL has at least 12 characters |
| CarForm.JoinFeatures | client/src/pages/admin/EditCar.js:57 | `features.join(', ')`: the empty list shows as "", otherwise the text begins with the first feature |
| CarForm.ValidateOtherFields | client/src/pages/admin/AddCar.js:67-70 | description error iff longer than 500; fuel type, transmission, features and availability are never flagged; messages are non-empty |
| CarForm.CleanEntries | client/src/pages/admin/AddCar.js:89 | trimming and dropping empties yields only non-empty, trimmed, comma-free entries |
| CarForm.ParseFeatures | client/src/pages/admin/AddCar.js:89 | every parsed feature is non-empty, has no surrounding whitespace and no comma |
| CarForm.RoundTripFrom | client/src/pages/admin/EditCar.js:137 | the split/trim/filter of a `", "`-join, with at most one leading space, gives back the list |
| CarForm.FeaturesRoundTrip | client/src/pages/admin/EditCar.js:137 | for well-formed entries, parsing the `", "`-join shown on load (line 57) gives back the stored list |
| CarForm.ParseFeaturesStable | client/src/pages/admin/EditCar.js:57 | showing and re-saving a parsed list changes nothing |
| CarForm.HandleChange | client/src/pages/admin/EditCar.js:75-85 | the named field takes the input's value (`checked` for the checkbox), others unchanged; only that field's shown error is blanked, no key added or removed |
| CarForm.Submit | client/src/pages/admin/AddCar.js:73-90 | saved iff the form validates, else the error map is returned; the payload carries the validated numbers within their ranges, the parsed feature list, and every text field and the availability exactly as in the form |
| AddCar.InitialForm | client/src/pages/admin/AddCar.js:10-25 | empty texts and numbers, "Petrol" and "Automatic" preselected, no availability field |
| AddCar.UntouchedFormErrors | client/src/pages/admin/AddCar.js:41-70 | submitting the untouched form flags exactly the ten required fields and saves nothing |
| EditCar.InitialForm | client/src/pages/admin/EditCar.js:12-28 | before loading: every text input and every number input empty, no features, fuel and transmission at their defaults, available |
| EditCar.LoadForm | client/src/pages/admin/EditCar.js:43-59 | missing texts become '', fuel type and transmission are EditCar.TextOr of the stored text with "Petrol" and "Automatic" as fallbacks, each of the five numbers becomes EditCar.NumberOrEmpty of the stored one (0 or missing shows empty), features are joined with ", ", availability is copied |
| EditCar.TextOr | client/src/pages/admin/EditCar.js:44-54 | `v \|\| fallback` for a text: the stored text when non-empty, else the fallback |
| EditCar.NumberOrEmpty | client/src/pages/admin/EditCar.js:47-53 | `v \|\| ''` for a number: present iff stored and non-zero, and then the stored number |
| EditCar.LoadFailure | client/src/pages/admin/EditCar.js:60-69 | status 404 sets the not-found flag with "Car not found."; any other failure shows the retry message and keeps the flag as the previous load left it (only a successful load clears it) |
| EditCar.ZeroMileageRefusedAfterLoad | client/src/pages/admin/EditCar.js:103-105 | a stored mileage of 0 is shown empty (line 52), so saving unchanged is refused, though a typed 0 passes |
| EditCar.StoredCarValidates | client/src/pages/admin/EditCar.js:89-119 | a stored car satisfying every rule (non-zero mileage) loads into a form with no errors |
| EditCar.StoredCarResaves | client/src/pages/admin/EditCar.js:130-138 | saving such a car unchanged sends its own numbers and its own feature list back |
| EditCar.BlankIsNoUrl | client/src/pages/admin/EditCar.js:109-112 | no blank string matches the image pattern, so the two image errors never overlap |
| Numbers.DecimalString | client/src/pages/Cars.js:75 | `String(n)` of a natural number is a non-empty digit string whose value is n |
| Numbers.NumberText | client/src/pages/Cars.js:75 | `String(n)`: the decimal digits of \|n\|, after a "-" for a negative n; never empty |
| Numbers.LeadingDigits | client/src/pages/Cars.js:26 | the maximal leading run of digits, the whole string when it is all digits |
| Numbers.ParseInt | client/src/pages/Cars.js:26 | `parseInt` yields a number only when the string contains a digit |
| Numbers.ParseNumberText | client/src/pages/Cars.js:26 | `parseInt(String(n)) === n` for every integer |
| Numbers.ParseIntIgnoresTail | client/src/pages/Cars.js:26 | `parseInt("12abc")` is 12 |
| Filters.Assign | client/src/pages/Cars.js:67 | `{ ...o, [k]: v }`: k maps to v, other keys unchanged, an existing key keeps its position, a new key is appended, keys stay unique |
| Filters.AssignStep | client/src/pages/Cars.js:67 | an entry with another key in front of an assigned rest keeps the assignment's four properties |
| Filters.Lookup | client/src/pages/Cars.js:67 | `o[k]`: present iff the key is among the record's keys, and then it is an entry of the record |
| Filters.AssignInPlace | client/src/pages/Cars.js:67 | assigning a key the object already holds replaces that entry where it stands and leaves every other entry, and the length, as they were |
| Filters.FilterChange | client/src/pages/Cars.js:66-70 | page becomes 1, the key takes the value unless it is `page`, all other keys unchanged, key order kept |
| Filters.PageChangeAsWritten | client/src/pages/Cars.js:101-103 | as written, changing page leaves every key other than page unchanged |
| Filters.PageChangeAlwaysFirstPage | client/src/pages/Cars.js:101-103 | as written, the page after a page change is 1 for every request, so any n ≠ 1 is ignored (same at AdminCars.js:93-95, AdminBookings.js:78-80, MyBookings.js:75-77) |
| Filters.NextPageStaysOnFirst | client/src/pages/Cars.js:101-103 | concretely, asking for page 2 from `{ page: 1 }` stays on page 1 |
| Filters.PageChange | client/src/pages/Cars.js:101-103 | corrected page change: page becomes n, nothing else changes, key order kept |
| Filters.TruthyIsStricter | client/src/pages/admin/AdminCars.js:33-35 | every truthy value passes the admin test (not '' and not null), but 0 and undefined pass only the admin test |
| Filters.Keeps | client/src/pages/Cars.js:75 | the two tests `if (value)` (Cars.js) and `value !== '' && value !== null` (AdminCars.js:72); a value either keeps writes a non-empty parameter |
| Filters.Query | client/src/pages/Cars.js:41-43 | the query holds exactly the entries whose value passes the page's test, no more entries than the record |
| Filters.QueryAppend | client/src/pages/Cars.js:41-43 | the query preserves entry order: it distributes over concatenation |
| Filters.QueryIdempotent | client/src/pages/admin/AdminCars.js:33-35 | filtering again changes nothing; the truthy query is the admin query filtered again |
| Filters.QueryLookup | client/src/pages/Cars.js:72-78 | a key is in the query with its value iff the record holds it and the value passes the test |
| Filters.Stringify | client/src/pages/Cars.js:72-78 | `params.set(k, value)` for each kept entry: one parameter per entry, in order, holding the key and the value's text |
| Filters.WriteUrl | client/src/pages/Cars.js:72-78 | `updateSearchParams`: at most one parameter per entry, each an entry that passed the test, with non-empty text |
| Filters.Param | client/src/pages/Cars.js:18 | `searchParams.get(k)`: a found value is a parameter under k; absent iff no parameter has key k |
| Filters.ParamOfStringify | client/src/pages/Cars.js:72-78 | `get(k)` on the written parameters is the text of the entry's value, when present |
| Filters.ReadWritten | client/src/pages/Cars.js:72-78 | `get(k)` after `updateSearchParams` is the value's text iff it passed the test, else absent |
| Filters.TextParam | client/src/pages/Cars.js:18 | `get(k) \|\| d`: the parameter when present and non-empty, else the fallback |
| Filters.IntParam | client/src/pages/Cars.js:26 | `parseInt(get(k)) \|\| fallback`: the parsed non-zero value, else the fallback; never 0 with a non-zero fallback |
| Filters.Read | client/src/pages/Cars.js:17-27 | whatever the address bar holds, the initial filters have the page's keys in order, non-empty where the fallback is, non-zero numbers; an absent parameter takes its fallback |
| Filters.ReadEmptyUrl | client/src/pages/Cars.js:17-27 | with an empty address bar every filter is its fallback |
| Filters.ReadWriteRoundTrip | client/src/pages/Cars.js:72-78 | reading back the written parameters restores any record of the page's shape, under either test |
| Filters.NumeralOfNumber | client/src/pages/admin/AdminCars.js:21-22 | the text of a non-zero number is a numeral that `parseInt` reads back as that number |
| Filters.Settle | client/src/pages/admin/AdminCars.js:18-23 | what a reload makes of reachable filters: the reload shape, the same keys and texts, kept by exactly the same tests; filters already of that shape are unchanged |
| Filters.SettleEntry | client/src/pages/admin/AdminCars.js:21-22 | one entry settled: a numeral under a number filter becomes its number, with the same text and the same test outcome |
| Filters.NumeralKept | client/src/pages/admin/AdminCars.js:72 | a non-zero number and its numeral pass both tests |
| Filters.SameTextSameUrl | client/src/pages/Cars.js:72-78 | records with the same keys, texts and test outcomes entry by entry write the same address bar |
| Filters.ReloadSettles | client/src/pages/admin/AdminCars.js:69-75 | writing reachable filters and reloading gives their settled form; writing that again gives the same address bar; filters of the reload shape come back unchanged |
| Filters.ReachableUnique | client/src/pages/admin/AdminCars.js:18-23 | reachable filters have the page's distinct keys |
| Filters.ReadEntryBack | client/src/pages/admin/AdminCars.js:18-23 | each filter read back from the written address bar is the settled entry at its position |
| Filters.ReadTextBack | client/src/pages/Cars.js:18 | a text filter reads back its written text, or its fallback exactly when nothing was written |
| Filters.ReadNumberBack | client/src/pages/admin/AdminCars.js:21-22 | a number filter holding a non-zero number or a numeral reads back as that number |
| Filters.ReadFrom | client/src/pages/Cars.js:17-27 | reading fills the record filter by filter: a record holding at each position what that filter reads from the address bar is, from any position on, what the page reads |
| Filters.AssignConforms | client/src/pages/Cars.js:67 | setting a key to a value its filter accepts keeps the record's shape |
| Filters.FilterChangeConforms | client/src/pages/Cars.js:66-70 | a filter change on a text filter keeps the page's record shape |
| Filters.AssignReachable | client/src/pages/Cars.js:67 | setting one filter to a value it can hold keeps the filters reachable |
| Filters.FilterChangeReachable | client/src/pages/Cars.js:66-70 | a filter change to a value the filter can hold keeps the filters reachable |
| Filters.NumberFilterChange | client/src/pages/admin/AdminCars.js:167 | the select stores the page size as text: the filters then hold the numeral, are reachable but not of the reload shape, and a reload turns it into the number |
| CarsPage.InitialFilters | client/src/pages/Cars.js:17-27 | the initial filters have the page's nine keys in order, with non-empty sort fields and a non-zero page |
| CarsPage.ClearFilters | client/src/pages/Cars.js:85-99 | all texts empty, sort by createdAt desc, page 1: exactly what the empty address bar the page writes reads as |
| CarsPage.AddressBarRoundTrip | client/src/pages/Cars.js:72-78 | reloading from the truthy parameters written restores the filters |
| CarsPage.ClearedAddressBars | client/src/pages/Cars.js:97-98 | clearing writes an empty address bar although the cleared filters have truthy entries; both reload the same |
| CarsPage.PagingReloads | client/src/pages/Cars.js:101-103 | with the corrected page change, the address bar reloads to the requested page |
| CarsPage.SortChange | client/src/pages/Cars.js:205-209 | the choice split on '-' sets sortBy and sortOrder (undefined without a '-'), and leaves page and every other key unchanged |
| CarsPage.SortSelectValue | client/src/pages/Cars.js:204 | the shown value splits on '-' back into the sortBy and sortOrder texts when neither holds a '-' |
| CarsPage.SortChoiceShown | client/src/pages/Cars.js:204-208 | choosing "field-order" sorts by field in that order and the select shows the same choice |
| CarsPage.SortOptionsRoundTrip | client/src/pages/Cars.js:212-215 | each of the five options round-trips through the select |
| AdminCarsPage.InitialFilters | client/src/pages/admin/AdminCars.js:18-23 | search, availability, page and page size; page and limit never 0, limit 10 when absent |
| AdminCarsPage.ClearFilters | client/src/pages/admin/AdminCars.js:82-91 | search '', availability '', page 1, limit 10: what an empty address bar reads as |
| AdminCarsPage.AddressBarRoundTrip | client/src/pages/admin/AdminCars.js:69-75 | for any filters the page can hold, a page size stored as text included, a reload gives their settled form and rewrites the same address bar; filters of the reload shape come back unchanged |
| AdminCarsPage.FilterChangeReloads | client/src/pages/admin/AdminCars.js:63-67 | changing search or availability keeps the filters reachable and the page size as it was; the written address bar reloads to the settled result, and to the result itself when the filters had the reload shape |
| AdminCarsPage.TextFilterChange | client/src/pages/admin/AdminCars.js:63-67 | the same for the text filter at a given position |
| AdminCarsPage.PageSizeReloads | client/src/pages/admin/AdminCars.js:163-173 | choosing a page size stores its text and resets page to 1, keeps search and availability; a reload reads the size back as a number and rewrites the same address bar |
| AdminBookingsPage.InitialFilters | client/src/pages/admin/AdminBookings.js:18-24 | status, dates, page and page size; page 1 when absent |
| AdminBookingsPage.ClearFilters | client/src/pages/admin/AdminBookings.js:82-92 | status and dates '', page 1, limit 10: what an empty address bar reads as |
| AdminBookingsPage.AddressBarRoundTrip | client/src/pages/admin/AdminBookings.js:70-76 | reloading from the parameters written (all but '' and null) restores the filters |
| AdminBookingsPage.StatusPill | client/src/pages/admin/AdminBookings.js:242-248 | the table's colour chain and capitalised label agree with the detail page's for every status |
| MyBookingsPage.InitialFilters | client/src/pages/MyBookings.js:17-21 | status, page and page size; status '' when absent |
| MyBookingsPage.ClearStatus | client/src/pages/MyBookings.js:134 | "Clear Filters" on any filters the page can hold empties status, resets page to 1 and keeps the page size; the result stays reachable and reloads to its settled form, or to itself when it had the reload shape |
| MyBookingsPage.AddressBarRoundTrip | client/src/pages/MyBookings.js:67-73 | for any filters the page can hold, a page size stored as text included, a reload gives their settled form and rewrites the same address bar; filters of the reload shape come back unchanged |
| MyBookingsPage.PageSizeReloads | client/src/pages/MyBookings.js:113-123 | choosing a page size stores its text and resets page to 1, keeps status; a reload reads the size back as a number and rewrites the same address bar |
| MyBookingsPage.ClearKeepsPageSize | client/src/pages/MyBookings.js:134 | from status pending, page 3, limit 25, clearing keeps limit 25 |
| MyBookingsPage.ShowsCancelButton | client/src/pages/MyBookings.js:205 | the list's cancel-button condition equals the detail page's `canCancel` |
| BookingDetails.CanCancel | client/src/pages/BookingDetails.js:74 | cancellable iff status is "confirmed" and the start is strictly after now |
| BookingDetails.CancelWindowCloses | client/src/pages/BookingDetails.js:74 | once the start has come a booking is never cancellable again; at the start instant it is not |
| BookingDetails.BadgeOf | client/src/pages/BookingDetails.js:90-95 | confirmed, pending and completed get green, yellow and blue, every other status red |
| BookingDetails.CancellableIsGreen | client/src/pages/BookingDetails.js:90-95 | a cancellable booking shows the green badge |
| BookingDetails.Label | client/src/pages/BookingDetails.js:96 | the label upper-cases only the first character and keeps the length |
| BookingDetails.KnownLabels | client/src/pages/BookingDetails.js:175 | the labels of the statuses and booking types; distinct lower-case words get distinct labels |
| BookingDetails.DurationUnit | client/src/pages/BookingDetails.js:182 | "hours" iff the booking type is "hourly", else "days" |
| BookingDetails.LoadFailure | client/src/pages/BookingDetails.js:30-34 | "Booking not found." iff status 404, else the retry message |

## Left out

- Network calls are not modelled: the car, availability, order, payment-verification, cancel and admin requests. Their results are inputs: an `available` flag with a message, a failure, an HTTP status, an error body.
- The Razorpay widget and its payment handler (BookingForm.js lines 170-215) are left out. It is foreign code that does I/O.
- The order of asynchronous replies is not modelled. The page discards no late availability reply, and the model claims no such guarantee.
- Time zones and daylight saving are left out: days are uniform 86 400 000 ms. The `toISOString().split('T')[0]` date strings of the order request are modelled as calendar day numbers.
- Locale formatting (`formatDate`, `formatDateTime`, `formatCurrency`), rendering, toasts, navigation, `window.confirm` and the date picker widgets are left out.
- Numeric inputs are not parsed as `Number`/`parseFloat` would parse them:
  - A number input is `Option<int>`. Prices are integers rather than floating-point numbers.
  - A whitespace-only input, which `isNaN` treats as 0, is not distinguished from other inputs.
- Numbers.ParseInt: its own contract only says that a number needs a digit. Its value is pinned down by Numbers.ParseNumberText and Numbers.ParseIntIgnoresTail. The `0x` hexadecimal prefix that `parseInt` without a radix accepts is not modelled, and neither is the precision of very large numbers.
- Filters.Assign: JavaScript puts integer-like keys before the others. The pages use no such keys, so this ordering rule is left out.
- Strings.Utf16Length: the contract bounds the length rather than computing it exactly for text outside the Basic Multilingual Plane.
- Upper-casing and case-insensitive comparison cover ASCII letters only, as the image pattern (no `u` flag) and the status words need.
- The "Apply Filters" buttons (Cars.js:246, AdminCars.js:178, AdminBookings.js:162, MyBookings.js:128) are a plain `updateSearchParams(filters)`, covered by `Filters.WriteUrl`. The search submits (Cars.js:82, AdminCars.js:79) are a `handleFilterChange` with the current text, covered by `Filters.FilterChange`. The search inputs (Cars.js:133, AdminCars.js:123) and the price inputs (Cars.js:228, 238) are plain `setFilters({ ...filters, [key]: value })` calls without a page reset, covered by `Filters.Assign`. None of these gets a lemma of its own.
- Filters.Reachable: a number filter may hold text only as the decimal numeral of a non-zero number, which is what the page-size options "5", "10" and "20" store. No page can put other text there, so other text is not covered.
- Files with no logic to model: the home page search redirect, the car detail page's login redirect, the navigation bar, the admin dashboard, the footer, the route table and the error-message component.

## Findings

| source | as written | input that shows it | evidently intended | confidence | as-written member | corrected member |
|---|---|---|---|---|---|---|
| client/src/pages/Cars.js:101-103 (also AdminCars.js:93-95, AdminBookings.js:78-80, MyBookings.js:75-77) | `handlePageChange(n)` calls `handleFilterChange('page', n)`, whose `{ ...filters, [key]: value, page: 1 }` overwrites the requested page with 1 | filters `{ page: 1 }`, "next page" asks for 2; the result has page 1 | the page becomes n and nothing else changes | high; not executed | Filters.PageChangeAsWritten (Filters.PageChangeAlwaysFirstPage, Filters.NextPageStaysOnFirst) | Filters.PageChange (used by CarsPage.PagingReloads) |
| client/src/pages/BookingForm.js:61-121 | a new valid interval sets amount and duration (lines 106-107) but leaves `isCarAvailable` from the previous interval until the reply arrives | daily, day 0 to day 1, reply "available"; then the end date moves to day 2: before any reply for the new interval the button is still enabled | every new request clears the verdict, so only a reply for the current interval enables payment | medium; not executed | BookingForm.StaleVerdictKeepsSubmitEnabled | BookingForm.RecalculateCorrected (BookingForm.RunEffectCorrected, BookingForm.CorrectedClearsStaleVerdict) |
| client/src/pages/BookingForm.js:99 | a daily duration is `calculateDaysBetween(startDate, endDate)` of the raw picker values, although the range check at line 87 uses the day-aligned interval of lines 82-83 | daily, both pickers on the same instant: the range check passes, duration 0, amount 0, so the booking can never be submitted | an interval the range check accepts costs at least one day: the same-day booking is priced as one day, and every other booking as written | medium; not executed | BookingForm.SameDayDailyUnbookable | BookingForm.RecalculateCorrected (BookingForm.CorrectedSameDayDailyBookable) |

=== FILE: add_car.dfy ===
/** The admin "add car" page: its empty starting form. Validation, the
    change handler and the save payload are the shared car-form ones. */
module AddCar {
  import opened Wrappers
  import Strings
  import CarForm

  /** Every text field empty, no numbers, petrol and automatic preselected;
      the page has no availability checkbox. */
  function InitialForm(): (f: CarForm.CarFormData)
    ensures f.fuelType == "Petrol" && f.transmission == "Automatic"
    ensures f.title == "" && f.brand == "" && f.model == "" && f.image == ""
    ensures f.location == "" && f.description == "" && f.features == ""
    ensures f.year.None? && f.pricePerDay.None? && f.pricePerHour.None?
    ensures f.mileage.None? && f.seats.None? && f.isAvailable.None?
  {
    CarForm.CarFormData("", "", "", None, None, None, "Petrol", "Automatic",
                        None, None, "", "", "", "", None)
  }

  /** Submitting the untouched form reports every required field at once:
      the four text fields, the five numbers and the image, and nothing
      else. */
  lemma UntouchedFormErrors(currentYear: int)
    ensures CarForm.Validate(InitialForm(), currentYear).Keys ==
              {CarForm.Title, CarForm.Brand, CarForm.Model, CarForm.Year, CarForm.PricePerDay,
               CarForm.PricePerHour, CarForm.Mileage, CarForm.Seats, CarForm.Image, CarForm.Location}
    ensures CarForm.Submit(InitialForm(), currentYear).Rejected?
  {
    var f := InitialForm();
    CarForm.ValidateTextFields(f, currentYear);
    CarForm.ValidateNumberFields(f, currentYear);
    CarForm.ValidateOtherFields(f, currentYear);
    CarForm.ValidateImage(f, currentYear);
    assert Strings.IsBlank("");
    assert Strings.Utf16Length("") == 0;
  }
}

=== FILE: admin_bookings_page.dfy ===
/** The admin booking list: status and date-range filters with page and
    page size in the address bar. Its status pill uses the badge and label
    of the booking detail page. */
module AdminBookingsPage {
  import opened Wrappers
  import opened Filters
  import BookingDetails
  import Strings

  const Schema: seq<FilterSpec> := [
    ("status", TextOr("")), ("startDate", TextOr("")), ("endDate", TextOr("")),
    ("page", IntOr(1)), ("limit", IntOr(10))]

  lemma SchemaWellFormed()
    ensures WellFormedSchema(Schema)
  {
  }

  /** The filters the page starts from. */
  function InitialFilters(url: Url): (o: seq<Entry>)
    ensures Conforms(o, Schema) && UniqueKeys(o)
    ensures Param(url, "page").None? ==> Lookup(o, "page") == Some(Num(1))
  {
    SchemaWellFormed();
    var o := Read(url, Schema);
    LookupAt(o, 3);
    o
  }

  /** `clearFilters()`: no status, no dates, page 1, 10 rows — the filters an
      empty address bar yields, which is what the page writes. */
  function ClearFilters(): (o: seq<Entry>)
    ensures o == InitialFilters([])
    ensures Lookup(o, "status") == Some(Str("")) && Lookup(o, "startDate") == Some(Str(""))
    ensures Lookup(o, "endDate") == Some(Str(""))
    ensures Lookup(o, "page") == Some(Num(1)) && Lookup(o, "limit") == Some(Num(10))
  {
    SchemaWellFormed();
    ReadEmptyUrl(Schema);
    var o := [("status", Str("")), ("startDate", Str("")), ("endDate", Str("")),
              ("page", Num(1)), ("limit", Num(10))];
    assert Defaults(Schema) == o;
    LookupAt(o, 0);
    LookupAt(o, 1);
    LookupAt(o, 2);
    LookupAt(o, 3);
    LookupAt(o, 4);
    o
  }

  /** Reloading from the parameters `updateSearchParams` wrote (everything
      but `''` and `null`) restores the filters. */
  lemma AddressBarRoundTrip(o: seq<Entry>)
    requires Conforms(o, Schema)
    ensures InitialFilters(WriteUrl(o, NotEmptyOrNull)) == o
  {
    SchemaWellFormed();
    ReadWriteRoundTrip(o, NotEmptyOrNull, Schema);
  }

  /** The table's status pill, written out again in the table: its colour
      chain and label agree with the detail page's for every status. */
  function StatusPill(status: string): (pill: (BookingDetails.Badge, string))
    ensures pill.0 == BookingDetails.BadgeOf(status)
    ensures pill.1 == BookingDetails.Label(status)
  {
    var badge :=
      if status == "confirmed" then BookingDetails.Green
      else if status == "pending" then BookingDetails.Yellow
      else if status == "completed" then BookingDetails.Blue
      else BookingDetails.Red;
    var caption := if |status| == 0 then "" else [Strings.ToUpperAscii(status[0])] + status[1..];
    (badge, caption)
  }
}

=== FILE: admin_cars_page.dfy ===
/** The admin car list: search and availability filters with page and
    page size in the address bar. */
module AdminCarsPage {
  import opened Wrappers
  import opened Filters
  import Numbers

  const Schema: seq<FilterSpec> := [
    ("search", TextOr("")), ("isAvailable", TextOr("")), ("page", IntOr(1)), ("limit", IntOr(10))]

  lemma SchemaWellFormed()
    ensures WellFormedSchema(Schema)
  {
  }

  /** The filters the page starts from: a page and a page size that are
      never 0, 10 rows unless the address bar says otherwise. */
  function InitialFilters(url: Url): (o: seq<Entry>)
    ensures Conforms(o, Schema) && UniqueKeys(o)
    ensures Param(url, "limit").None? ==> Lookup(o, "limit") == Some(Num(10))
  {
    SchemaWellFormed();
    var o := Read(url, Schema);
    LookupAt(o, 3);
    o
  }

  /** `clearFilters()`: both filters empty, page 1, 10 rows — the filters an
      empty address bar yields, which is what the page writes. */
  function ClearFilters(): (o: seq<Entry>)
    ensures o == InitialFilters([])
    ensures Lookup(o, "search") == Some(Str("")) && Lookup(o, "isAvailable") == Some(Str(""))
    ensures Lookup(o, "page") == Some(Num(1)) && Lookup(o, "limit") == Some(Num(10))
  {
    SchemaWellFormed();
    ReadEmptyUrl(Schema);
    var o := [("search", Str("")), ("isAvailable", Str("")), ("page", Num(1)), ("limit", Num(10))];
    assert Defaults(Schema) == o;
    LookupAt(o, 0);
    LookupAt(o, 1);
    LookupAt(o, 2);
    LookupAt(o, 3);
    o
  }

  /** Reloading from the parameters `updateSearchParams` wrote (everything
      but `''` and `null`) gives the filters back, a page size the select
      stored as a string coming back as its number; the reloaded filters
      write the same address bar again. */
  lemma AddressBarRoundTrip(o: seq<Entry>)
    requires Reachable(o, Schema)
    ensures InitialFilters(WriteUrl(o, NotEmptyOrNull)) == Settle(o, Schema)
    ensures WriteUrl(InitialFilters(WriteUrl(o, NotEmptyOrNull)), NotEmptyOrNull) == WriteUrl(o, NotEmptyOrNull)
    ensures Conforms(o, Schema) ==> InitialFilters(WriteUrl(o, NotEmptyOrNull)) == o
  {
    SchemaWellFormed();
    ReloadSettles(o, NotEmptyOrNull, Schema);
  }

  /** Choosing an availability or typing a search keeps the record
      reachable, keeps the page size, and returns to page 1; the address bar
      written from the result reloads to its settled form, and to the
      result itself when the page size was a number. */
  lemma FilterChangeReloads(o: seq<Entry>, k: string, s: string)
    requires Reachable(o, Schema) && (k == "search" || k == "isAvailable")
    ensures UniqueKeys(o)
    ensures var r := FilterChange(o, k, Str(s));
            && Reachable(r, Schema)
            && Lookup(r, "limit") == Lookup(o, "limit")
            && InitialFilters(WriteUrl(r, NotEmptyOrNull)) == Settle(r, Schema)
            && (Conforms(o, Schema) ==> Conforms(r, Schema) && InitialFilters(WriteUrl(r, NotEmptyOrNull)) == r)
  {
    if k == "search" {
      TextFilterChange(o, 0, s);
    } else {
      TextFilterChange(o, 1, s);
    }
  }

  lemma TextFilterChange(o: seq<Entry>, ik: nat, s: string)
    requires Reachable(o, Schema) && ik < 2
    ensures UniqueKeys(o)
    ensures var r := FilterChange(o, Schema[ik].0, Str(s));
            && Reachable(r, Schema)
            && Lookup(r, "limit") == Lookup(o, "limit")
            && InitialFilters(WriteUrl(r, NotEmptyOrNull)) == Settle(r, Schema)
            && (Conforms(o, Schema) ==> Conforms(r, Schema) && InitialFilters(WriteUrl(r, NotEmptyOrNull)) == r)
  {
    SchemaWellFormed();
    var k := Schema[ik].0;
    assert HasPage(Schema) by { assert Schema[2].0 == "page"; }
    FilterChangeReachable(o, Schema, ik, Str(s));
    var r := FilterChange(o, k, Str(s));
    assert Lookup(r, "limit") == Lookup(o, "limit") by {
      assert Schema[3].0 == "limit" && Schema[2].0 == "page";
      assert Schema[ik].0 != Schema[3].0 && Schema[2].0 != Schema[3].0;
    }
    assert Conforms(o, Schema) ==> Conforms(r, Schema) by {
      if Conforms(o, Schema) {
        assert Schema[ik].0 == k && Schema[ik].1.TextOr?;
        assert HasTextFilter(Schema, k);
        FilterChangeConforms(o, Schema, k, s);
      }
    }
    AddressBarRoundTrip(r);
  }

  lemma KeysDiffer()
    ensures "limit" != "search" && "limit" != "isAvailable" && "limit" != "page"
  {
  }

  /** Choosing n rows (the options are 5, 10 and 20) stores the option's
      value, the string `String(n)`, under `limit`: the record no longer has
      the shape a reload gives. It returns to page 1 and keeps the other
      filters; a reload reads the page size back as the number n, and the
      reloaded filters write the same address bar. */
  lemma PageSizeReloads(o: seq<Entry>, n: int)
    requires Reachable(o, Schema) && n > 0
    ensures UniqueKeys(o)
    ensures var d := Numbers.NumberText(n);
            var r := FilterChange(o, "limit", Str(d));
            && Reachable(r, Schema) && !Conforms(r, Schema)
            && Lookup(r, "limit") == Some(Str(d)) && Lookup(r, "page") == Some(Num(1))
            && Lookup(r, "search") == Lookup(o, "search") && Lookup(r, "isAvailable") == Lookup(o, "isAvailable")
            && Lookup(InitialFilters(WriteUrl(r, NotEmptyOrNull)), "limit") == Some(Num(n))
            && WriteUrl(InitialFilters(WriteUrl(r, NotEmptyOrNull)), NotEmptyOrNull) == WriteUrl(r, NotEmptyOrNull)
  {
    SchemaWellFormed();
    assert HasPage(Schema) by { assert Schema[2].0 == "page"; }
    NumberFilterChange(o, Schema, 3, n);
    var r := FilterChange(o, "limit", Str(Numbers.NumberText(n)));
    assert Lookup(r, "page") == Some(Num(1));
    KeysDiffer();
    AddressBarRoundTrip(r);
  }
}

=== FILE: booking_details.dfy ===
/** The booking detail page and the status display it shares with the
    booking lists: the cancel predicate, status and type labels, the badge
    colour, the duration unit and the load-error message. */
module BookingDetails {
  import opened Wrappers
  import Strings
  import DateUtils

  /** `status === 'confirmed' && new Date(startDate) > new Date()`: only a
      confirmed booking that has not started may be cancelled. Instants are
      milliseconds; `now` is the clock reading. */
  function CanCancel(status: string, startDate: int, now: int): (b: bool)
    ensures b <==> status == "confirmed" && now < startDate
    ensures b ==> !DateUtils.IsDateInPast(startDate, now)
  {
    status == "confirmed" && startDate > now
  }

  /** The cancel window only closes: once a booking cannot be cancelled
      because its start has come, it never can again, and at the very
      start instant it already cannot. */
  lemma CancelWindowCloses(status: string, startDate: int, now: int, later: int)
    requires now <= later
    ensures CanCancel(status, startDate, later) ==> CanCancel(status, startDate, now)
    ensures !CanCancel(status, startDate, startDate)
    ensures CanCancel(status, startDate, now) <==> status == "confirmed" && !DateUtils.IsDateInPast(startDate, now) && startDate != now
  {
  }

  /** The badge colours of the status pill. */
  datatype Badge = Green | Yellow | Blue | Red

  function BadgeOf(status: string): (b: Badge)
    ensures b == Green <==> status == "confirmed"
    ensures b == Yellow <==> status == "pending"
    ensures b == Blue <==> status == "completed"
    ensures b == Red <==> status != "confirmed" && status != "pending" && status != "completed"
  {
    if status == "confirmed" then Green
    else if status == "pending" then Yellow
    else if status == "completed" then Blue
    else Red
  }

  /** A booking that can be cancelled shows the green badge. */
  lemma CancellableIsGreen(status: string, startDate: int, now: int)
    ensures CanCancel(status, startDate, now) ==> BadgeOf(status) == Green
  {
  }

  /** `s.charAt(0).toUpperCase() + s.slice(1)`, used for the status and the
      booking type. */
  function Label(s: string): (r: string)
    ensures |r| == |s|
    ensures |s| > 0 ==> r[0] == Strings.ToUpperAscii(s[0]) && r[1..] == s[1..]
    ensures s == "" ==> r == ""
  {
    Strings.Capitalize(s)
  }

  /** The labels of the statuses and booking types the service uses; two
      different lower-case words always get different labels. */
  lemma KnownLabels(a: string, b: string)
    ensures Label("confirmed") == "Confirmed" && Label("pending") == "Pending"
    ensures Label("cancelled") == "Cancelled" && Label("completed") == "Completed"
    ensures Label("hourly") == "Hourly" && Label("daily") == "Daily"
    ensures |a| > 0 && |b| > 0 && 'a' <= a[0] <= 'z' && 'a' <= b[0] <= 'z' && a != b ==> Label(a) != Label(b)
  {
  }

  /** `bookingType === 'hourly' ? 'hours' : 'days'` */
  function DurationUnit(bookingType: string): (u: string)
    ensures u == "hours" <==> bookingType == "hourly"
    ensures u == "days" <==> bookingType != "hourly"
  {
    if bookingType == "hourly" then "hours" else "days"
  }

  const NotFoundMessage: string := "Booking not found."
  const LoadFailedMessage: string := "Failed to load booking details. Please try again."

  /** The message for a failed load: a 404 says the booking does not exist,
      anything else (another status or no response) offers a retry. */
  function LoadFailure(status: Option<int>): (m: string)
    ensures m == NotFoundMessage <==> status == Some(404)
    ensures m == LoadFailedMessage <==> status != Some(404)
  {
    if status == Some(404) then NotFoundMessage else LoadFailedMessage
  }
}

=== FILE: booking_form.dfy ===
/** The booking form of a car's rental page: turning the picked dates,
    clock times and booking type into an interval, pricing it, gating the
    form on the availability verdict, validating it and deciding whether a
    payment order may be requested.

    A picked date is the instant (ms since the epoch) the date picker
    returned. `setHours(h, m, s, ms)` keeps the calendar day of an instant
    and replaces its time of day. */
module BookingForm {
  import opened Wrappers
  import Strings
  import DateUtils
  import TimeGrid

  datatype BookingType = Hourly | Daily

  /** The fields of the loaded car the form uses. */
  datatype Car = Car(pricePerDay: int, pricePerHour: int, location: string)

  datatype Interval = Interval(start: int, end: int)

  /** The calendar day of an instant. */
  function DayOf(t: int): int {
    t / DateUtils.MsPerDay
  }

  /** The milliseconds elapsed since the start of its day. */
  function TimeOfDay(t: int): nat {
    t % DateUtils.MsPerDay
  }

  lemma DayAndTime(d: int, ms: int)
    requires 0 <= ms < DateUtils.MsPerDay
    ensures DayOf(d * DateUtils.MsPerDay + ms) == d
    ensures TimeOfDay(d * DateUtils.MsPerDay + ms) == ms
  {
  }

  /** `new Date(date).setHours(…)`: the same calendar day at time of day `ms`. */
  function SetClock(date: int, ms: nat): (t: int)
    requires ms < DateUtils.MsPerDay
    ensures DayOf(t) == DayOf(date) && TimeOfDay(t) == ms
  {
    DayAndTime(DayOf(date), ms);
    DayOf(date) * DateUtils.MsPerDay + ms
  }

  /** Two instants compare as their (day, time of day) pairs compare. */
  lemma InstantOrder(a: int, b: int)
    ensures a < b <==> DayOf(a) < DayOf(b) || (DayOf(a) == DayOf(b) && TimeOfDay(a) < TimeOfDay(b))
  {
    var M := DateUtils.MsPerDay;
    assert a == DayOf(a) * M + TimeOfDay(a);
    assert b == DayOf(b) * M + TimeOfDay(b);
    if DayOf(a) < DayOf(b) {
      assert DayOf(a) * M + M <= DayOf(b) * M;
    } else if DayOf(b) < DayOf(a) {
      assert DayOf(b) * M + M <= DayOf(a) * M;
    }
  }

  /** The interval the form derives from its inputs: an hourly booking runs
      from the start day at the start mark to the end day at the end mark
      (seconds and milliseconds zero); a daily booking runs from the first
      millisecond of the start day to the last millisecond of the end day,
      whatever the clock inputs say. */
  function Normalize(bt: BookingType, startDate: int, endDate: int,
                     startTime: TimeGrid.Slot, endTime: TimeGrid.Slot): (iv: Interval)
    ensures DayOf(iv.start) == DayOf(startDate) && DayOf(iv.end) == DayOf(endDate)
    ensures bt == Hourly ==>
              && TimeOfDay(iv.start) == TimeGrid.SlotMinutesOfDay(startTime) * DateUtils.MsPerMinute
              && TimeOfDay(iv.end) == TimeGrid.SlotMinutesOfDay(endTime) * DateUtils.MsPerMinute
    ensures bt == Daily ==>
              TimeOfDay(iv.start) == 0 && TimeOfDay(iv.end) == DateUtils.MsPerDay - 1
  {
    match bt
    case Hourly =>
      Interval(SetClock(startDate, TimeGrid.SlotMinutesOfDay(startTime) * DateUtils.MsPerMinute),
               SetClock(endDate, TimeGrid.SlotMinutesOfDay(endTime) * DateUtils.MsPerMinute))
    case Daily =>
      Interval(SetClock(startDate, 0), SetClock(endDate, DateUtils.MsPerDay - 1))
  }

  /** The range check `startDateTime >= endDateTime` rejects exactly: a daily
      booking whose end day precedes its start day, and an hourly booking
      whose end day precedes its start day or, on the same day, whose end
      mark is not after its start mark. */
  lemma NormalizedRangeValid(bt: BookingType, startDate: int, endDate: int,
                             startTime: TimeGrid.Slot, endTime: TimeGrid.Slot)
    ensures var iv := Normalize(bt, startDate, endDate, startTime, endTime);
            bt == Daily ==> (iv.start < iv.end <==> DayOf(startDate) <= DayOf(endDate))
    ensures var iv := Normalize(bt, startDate, endDate, startTime, endTime);
            bt == Hourly ==>
              (iv.start < iv.end <==>
                 DayOf(startDate) < DayOf(endDate) ||
                 (DayOf(startDate) == DayOf(endDate) && startTime < endTime))
  {
    var iv := Normalize(bt, startDate, endDate, startTime, endTime);
    InstantOrder(iv.start, iv.end);
  }

  /** The page's state: the loaded car, the form inputs and what the
      recalculation effect and the submit handler write. */
  datatype FormState = FormState(
    car: Option<Car>,
    startDate: Option<int>,
    endDate: Option<int>,
    startTime: TimeGrid.Slot,
    endTime: TimeGrid.Slot,
    pickupLocation: string,
    dropoffLocation: string,
    bookingType: BookingType,
    specialRequests: string,
    totalAmount: int,
    duration: int,
    availabilityMessage: string,
    isCarAvailable: bool,
    bookingLoading: bool)

  const SelectDatesMessage: string := "Please select valid dates."
  const RangeMessage: string := "End date/time must be after start date/time."
  const AvailabilityFailedMessage: string := "Failed to check availability. Please try again."

  /** The state before the car has loaded: no dates, "09:00" to "17:00",
      daily, nothing priced and nothing available. */
  function InitialState(): (s: FormState)
    ensures s.car.None? && s.startDate.None? && s.endDate.None?
    ensures TimeGrid.SlotLabel(s.startTime) == "09:00" && TimeGrid.SlotLabel(s.endTime) == "17:00"
    ensures s.bookingType == Daily && !s.isCarAvailable && s.totalAmount == 0 && !s.bookingLoading
  {
    FormState(None, None, None, 18, 34, "", "", Daily, "", 0, 0, "", false, false)
  }

  /** A loaded car also becomes the default pickup and dropoff location. */
  function CarLoaded(s: FormState, car: Car): (r: FormState)
    ensures r.car == Some(car)
    ensures r.pickupLocation == car.location && r.dropoffLocation == car.location
    ensures r.(car := s.car, pickupLocation := s.pickupLocation, dropoffLocation := s.dropoffLocation) == s
  {
    s.(car := Some(car), pickupLocation := car.location, dropoffLocation := car.location)
  }

  /** What the recalculation effect did: the new state, and the interval it
      asked the availability service about, if it asked at all. */
  datatype Recalculation = Recalculation(state: FormState, request: Option<Interval>)

  /** Everything the form needs before it can price: a car and both dates. */
  predicate Complete(s: FormState) {
    s.car.Some? && s.startDate.Some? && s.endDate.Some?
  }

  function FormInterval(s: FormState): Interval
    requires s.startDate.Some? && s.endDate.Some?
  {
    Normalize(s.bookingType, s.startDate.value, s.endDate.value, s.startTime, s.endTime)
  }

  /** The synchronous part of the effect that runs whenever the car, a date,
      a clock time or the booking type changes. A daily booking is priced
      from the raw picked dates, an hourly one from the normalised instants.
      On a valid interval the previous availability verdict and message are
      left in place until the service replies. */
  function Recalculate(s: FormState): (r: Recalculation)
    ensures r.state.(totalAmount := s.totalAmount, duration := s.duration,
                     availabilityMessage := s.availabilityMessage,
                     isCarAvailable := s.isCarAvailable) == s
    ensures !Complete(s) ==>
              && r.request.None? && r.state.totalAmount == 0 && r.state.duration == 0
              && !r.state.isCarAvailable && r.state.availabilityMessage == SelectDatesMessage
    ensures Complete(s) && FormInterval(s).start >= FormInterval(s).end ==>
              && r.request.None? && r.state.totalAmount == 0 && r.state.duration == 0
              && !r.state.isCarAvailable && r.state.availabilityMessage == RangeMessage
    ensures Complete(s) && FormInterval(s).start < FormInterval(s).end ==>
              && r.request == Some(FormInterval(s))
              && r.state.isCarAvailable == s.isCarAvailable
              && r.state.availabilityMessage == s.availabilityMessage
              && (s.bookingType == Daily ==>
                    && r.state.duration == DateUtils.DaysBetween(s.startDate.value, s.endDate.value)
                    && r.state.totalAmount == r.state.duration * s.car.value.pricePerDay)
              && (s.bookingType == Hourly ==>
                    && r.state.duration == DateUtils.HoursBetween(FormInterval(s).start, FormInterval(s).end)
                    && r.state.totalAmount == r.state.duration * s.car.value.pricePerHour)
    ensures r.request.Some? ==> r.state.duration > 0 || s.bookingType == Daily
  {
    if !Complete(s) then
      Recalculation(s.(totalAmount := 0, duration := 0, availabilityMessage := SelectDatesMessage,
                       isCarAvailable := false), None)
    else
      var iv := FormInterval(s);
      if iv.start >= iv.end then
        Recalculation(s.(totalAmount := 0, duration := 0, availabilityMessage := RangeMessage,
                         isCarAvailable := false), None)
      else
        var duration :=
          if s.bookingType == Daily then DateUtils.DaysBetween(s.startDate.value, s.endDate.value)
          else DateUtils.HoursBetween(iv.start, iv.end);
        var price := if s.bookingType == Daily then s.car.value.pricePerDay else s.car.value.pricePerHour;
        Recalculation(s.(totalAmount := duration * price, duration := duration), Some(iv))
  }

  /** How the availability request ended. */
  datatype AvailabilityReply = Answered(available: bool, message: string) | RequestFailed

  /** The asynchronous tail of the effect: the verdict is copied as it is, and
      a failed request counts as unavailable. */
  function ReceiveAvailability(s: FormState, reply: AvailabilityReply): (r: FormState)
    ensures r.isCarAvailable <==> reply.Answered? && reply.available
    ensures reply.RequestFailed? ==> r.availabilityMessage == AvailabilityFailedMessage
    ensures reply.Answered? ==> r.availabilityMessage == reply.message
    ensures r.(isCarAvailable := s.isCarAvailable, availabilityMessage := s.availabilityMessage) == s
  {
    match reply
    case Answered(available, message) => s.(isCarAvailable := available, availabilityMessage := message)
    case RequestFailed => s.(isCarAvailable := false, availabilityMessage := AvailabilityFailedMessage)
  }

  /** The whole effect: recalculate, and if a request was made, apply its
      reply. It writes only the amount, the duration and the verdict with its
      message, and the verdict is `true` only when a request was made and
      answered `available: true`. */
  function RunEffect(s: FormState, reply: AvailabilityReply): (r: FormState)
    ensures r.(totalAmount := s.totalAmount, duration := s.duration,
               availabilityMessage := s.availabilityMessage,
               isCarAvailable := s.isCarAvailable) == s
    ensures r.isCarAvailable ==> Recalculate(s).request.Some? && reply.Answered? && reply.available
  {
    var r := Recalculate(s);
    if r.request.Some? then ReceiveAvailability(r.state, reply) else r.state
  }

  /** The fields `validateForm` can flag. */
  datatype FormError =
    | StartDateRequired
    | EndDateRequired
    | DateRange
    | PickupLocationRequired
    | DropoffLocationRequired
    | Unavailable
    | AmountNotPositive

  /** `validateForm()`: every failed check adds its own error. A missing
      date still takes part in the range check as `new Date(null)`, the
      epoch. */
  function ValidateForm(s: FormState): (errors: set<FormError>)
    ensures StartDateRequired in errors <==> s.startDate.None?
    ensures EndDateRequired in errors <==> s.endDate.None?
    ensures DateRange in errors <==>
              var iv := Normalize(s.bookingType, s.startDate.GetOr(0), s.endDate.GetOr(0), s.startTime, s.endTime);
              iv.start >= iv.end
    ensures PickupLocationRequired in errors <==> Strings.IsBlank(s.pickupLocation)
    ensures DropoffLocationRequired in errors <==> Strings.IsBlank(s.dropoffLocation)
    ensures Unavailable in errors <==> !s.isCarAvailable
    ensures AmountNotPositive in errors <==> s.totalAmount <= 0
  {
    set e | e in AllFormErrors && Fails(s, e)
  }

  const AllFormErrors: set<FormError> :=
    {StartDateRequired, EndDateRequired, DateRange, PickupLocationRequired,
     DropoffLocationRequired, Unavailable, AmountNotPositive}

  /** The check behind each error key. */
  predicate Fails(s: FormState, e: FormError) {
    match e
    case StartDateRequired => s.startDate.None?
    case EndDateRequired => s.endDate.None?
    case DateRange =>
      var iv := Normalize(s.bookingType, s.startDate.GetOr(0), s.endDate.GetOr(0), s.startTime, s.endTime);
      iv.start >= iv.end
    case PickupLocationRequired => Strings.IsBlank(s.pickupLocation)
    case DropoffLocationRequired => Strings.IsBlank(s.dropoffLocation)
    case Unavailable => !s.isCarAvailable
    case AmountNotPositive => s.totalAmount <= 0
  }

  /** The submit button's enabling condition: not busy, and neither of the
      two checks of `validateForm` that the button repeats would fail. */
  predicate SubmitEnabled(s: FormState)
    ensures SubmitEnabled(s) <==>
              !s.bookingLoading && Unavailable !in ValidateForm(s) && AmountNotPositive !in ValidateForm(s)
  {
    !s.bookingLoading && s.isCarAvailable && s.totalAmount > 0
  }

  /** The payload of the order request; dates are sent as calendar days. */
  datatype BookingDraft = BookingDraft(
    carId: string,
    startDay: int,
    endDay: int,
    startTime: string,
    endTime: string,
    bookingType: BookingType,
    pickupLocation: string,
    dropoffLocation: string,
    specialRequests: string)

  datatype SubmitOutcome =
    | Rejected(errors: set<FormError>)
    | OrderRequested(state: FormState, draft: BookingDraft)

  /** `handleSubmit`: an order is requested only for a form that validates;
      the request carries the form's own inputs and marks the form busy. */
  function HandleSubmit(s: FormState, carId: string): (out: SubmitOutcome)
    ensures out.OrderRequested? <==> ValidateForm(s) == {}
    ensures out.Rejected? ==> out.errors == ValidateForm(s) && out.errors != {}
    ensures out.OrderRequested? ==>
              && out.state == s.(bookingLoading := true)
              && s.startDate.Some? && s.endDate.Some?
              && out.draft.startDay == DayOf(s.startDate.value)
              && out.draft.endDay == DayOf(s.endDate.value)
              && out.draft.startTime == TimeGrid.SlotLabel(s.startTime)
              && out.draft.endTime == TimeGrid.SlotLabel(s.endTime)
              && out.draft.carId == carId && out.draft.bookingType == s.bookingType
              && out.draft.pickupLocation == s.pickupLocation
              && out.draft.dropoffLocation == s.dropoffLocation
              && out.draft.specialRequests == s.specialRequests
  {
    var errors := ValidateForm(s);
    if errors != {} then Rejected(errors)
    else
      OrderRequested(
        s.(bookingLoading := true),
        BookingDraft(carId, DayOf(s.startDate.value), DayOf(s.endDate.value),
                     TimeGrid.SlotLabel(s.startTime), TimeGrid.SlotLabel(s.endTime),
                     s.bookingType, s.pickupLocation, s.dropoffLocation, s.specialRequests))
  }

  /** The error body of a failed order request, as far as the form reads it. */
  datatype ErrorBody = ErrorBody(message: Option<string>, firstErrorMsg: Option<string>)

  const InitiateFailedMessage: string := "Failed to initiate payment."

  /** The toast shown when the order request fails: the server's message,
      else its first validation message, else a fallback; empty strings
      count as absent. */
  function OrderFailureMessage(body: Option<ErrorBody>): (m: string)
    ensures m != ""
    ensures body.Some? && body.value.message.Some? && body.value.message.value != "" ==>
              m == body.value.message.value
    ensures body.Some? && body.value.message.GetOr("") == "" && body.value.firstErrorMsg.GetOr("") != "" ==>
              m == body.value.firstErrorMsg.value
    ensures body.Some? && body.value.message.GetOr("") == "" && body.value.firstErrorMsg.GetOr("") == "" ==>
              m == InitiateFailedMessage
    ensures body.None? ==> m == InitiateFailedMessage
  {
    var fromMessage := if body.Some? then body.value.message.GetOr("") else "";
    var fromErrors := if body.Some? then body.value.firstErrorMsg.GetOr("") else "";
    if fromMessage != "" then fromMessage
    else if fromErrors != "" then fromErrors
    else InitiateFailedMessage
  }

  /** A failed order request frees the form again. */
  function OrderFailed(s: FormState): (r: FormState)
    ensures !r.bookingLoading
    ensures r.(bookingLoading := s.bookingLoading) == s
  {
    s.(bookingLoading := false)
  }

  /** After the effect has run, the car counts as available only if the
      inputs were complete, the interval valid, and the service answered
      `available: true` to the request made for it. */
  lemma AvailabilityOnlyFromReply(s: FormState, reply: AvailabilityReply)
    ensures var r := RunEffect(s, reply);
            r.isCarAvailable <==>
              && Complete(s) && FormInterval(s).start < FormInterval(s).end
              && reply.Answered? && reply.available
  {
  }

  /** Once the effect has run on complete inputs with both locations filled
      in, the form validates exactly when the interval is valid, the
      service said the car is available and the quoted amount is positive. */
  lemma EffectThenValidate(s: FormState, reply: AvailabilityReply)
    requires Complete(s)
    requires !Strings.IsBlank(s.pickupLocation) && !Strings.IsBlank(s.dropoffLocation)
    ensures var r := RunEffect(s, reply);
            ValidateForm(r) == {} <==>
              && FormInterval(s).start < FormInterval(s).end
              && reply.Answered? && reply.available
              && r.totalAmount > 0
  {
    var r := RunEffect(s, reply);
    assert r.startDate == s.startDate && r.endDate == s.endDate;
    if ValidateForm(r) == {} {
      assert DateRange !in ValidateForm(r);
      assert Unavailable !in ValidateForm(r);
    }
  }

  /** A daily booking whose start and end pickers hold the same instant
      passes the range check (it spans one whole day) but is priced at zero
      days, so it can neither be submitted nor validated. */
  lemma SameDayDailyUnbookable(s: FormState, reply: AvailabilityReply)
    requires Complete(s) && s.bookingType == Daily && s.startDate == s.endDate
    ensures Recalculate(s).request.Some?
    ensures Recalculate(s).state.duration == 0 && Recalculate(s).state.totalAmount == 0
    ensures !SubmitEnabled(RunEffect(s, reply))
    ensures AmountNotPositive in ValidateForm(RunEffect(s, reply))
  {
    NormalizedRangeValid(Daily, s.startDate.value, s.endDate.value, s.startTime, s.endTime);
  }

  /** Daily booking from the 1st to the 3rd of June 2024 (days 19875 and
      19877 after the epoch), both picked at midnight, at 1000 a day: two
      days, 2000 in all. */
  lemma DailyExample(s: FormState)
    requires s.car.Some? && s.car.value.pricePerDay == 1000
    requires s.bookingType == Daily
    requires s.startDate == Some(19875 * DateUtils.MsPerDay)
    requires s.endDate == Some(19877 * DateUtils.MsPerDay)
    ensures Recalculate(s).request.Some?
    ensures Recalculate(s).state.duration == 2
    ensures Recalculate(s).state.totalAmount == 2000
  {
    NormalizedRangeValid(Daily, s.startDate.value, s.endDate.value, s.startTime, s.endTime);
    DateUtils.WholeDays(19875 * DateUtils.MsPerDay, 2);
  }

  /** Hourly booking on one day from "09:00" to "09:30": half an hour is
      charged as one hour. */
  lemma HourlyExample(s: FormState)
    requires Complete(s) && s.bookingType == Hourly
    requires s.startDate == s.endDate
    requires TimeGrid.SlotLabel(s.startTime) == "09:00" && TimeGrid.SlotLabel(s.endTime) == "09:30"
    ensures Recalculate(s).request.Some?
    ensures Recalculate(s).state.duration == 1
    ensures Recalculate(s).state.totalAmount == s.car.value.pricePerHour
  {
    HalfPastNineMarks(s.startTime, s.endTime);
    HalfHourInterval(s);
    DateUtils.HoursExamples(FormInterval(s).start);
  }

  /** "09:00" and "09:30" are grid marks 18 and 19. */
  lemma HalfPastNineMarks(a: TimeGrid.Slot, b: TimeGrid.Slot)
    requires TimeGrid.SlotLabel(a) == "09:00" && TimeGrid.SlotLabel(b) == "09:30"
    ensures a == 18 && b == 19
  {
    TimeGrid.DefaultTimesOnGrid();
    HalfPastNineLabel();
    SameLabelSameMark(a, 18);
    SameLabelSameMark(b, 19);
  }

  lemma HalfPastNineLabel()
    ensures TimeGrid.SlotLabel(19) == "09:30"
  {
  }

  /** Distinct grid marks have distinct labels. */
  lemma SameLabelSameMark(a: TimeGrid.Slot, k: TimeGrid.Slot)
    requires TimeGrid.SlotLabel(a) == TimeGrid.SlotLabel(k)
    ensures a == k
  {
    TimeGrid.SlotLabelsParseBack(a, k);
  }

  /** On one day, marks 18 and 19 are half an hour apart. */
  lemma HalfHourInterval(s: FormState)
    requires Complete(s) && s.bookingType == Hourly && s.startDate == s.endDate
    requires s.startTime == 18 && s.endTime == 19
    ensures FormInterval(s).end - FormInterval(s).start == 30 * DateUtils.MsPerMinute
  {
    var iv := FormInterval(s);
    var M := DateUtils.MsPerDay;
    assert iv.start == DayOf(iv.start) * M + TimeOfDay(iv.start);
    assert iv.end == DayOf(iv.end) * M + TimeOfDay(iv.end);
  }

  /** A form that validates and is not busy has its submit button enabled. */
  lemma ValidFormCanSubmit(s: FormState)
    requires ValidateForm(s) == {} && !s.bookingLoading
    ensures SubmitEnabled(s)
  {
    assert Unavailable !in ValidateForm(s);
    assert AmountNotPositive !in ValidateForm(s);
  }

  /** The button can be enabled on a form that does not validate (here a
      blank pickup location); the submit handler then sends no order. */
  lemma EnabledButRejected()
    ensures var s := InitialState().(car := Some(Car(1000, 100, "Pune")),
                                     startDate := Some(0), endDate := Some(DateUtils.MsPerDay),
                                     dropoffLocation := "Pune", isCarAvailable := true,
                                     totalAmount := 1000);
            SubmitEnabled(s) && HandleSubmit(s, "car").Rejected?
            && HandleSubmit(s, "car").errors == {PickupLocationRequired}
  {
    var s := InitialState().(car := Some(Car(1000, 100, "Pune")),
                             startDate := Some(0), endDate := Some(DateUtils.MsPerDay),
                             dropoffLocation := "Pune", isCarAvailable := true,
                             totalAmount := 1000);
    NormalizedRangeValid(Daily, 0, DateUtils.MsPerDay, s.startTime, s.endTime);
    assert Fails(s, PickupLocationRequired);
    assert !Strings.IsBlank(s.dropoffLocation);
    assert ValidateForm(s) == {PickupLocationRequired};
  }

  /** The verdict for a superseded interval survives the recalculation: a
      form that was available for the 1st to the 2nd day stays submittable
      the moment its end date moves to the 3rd day, before any answer about
      the new interval has arrived. */
  lemma StaleVerdictKeepsSubmitEnabled()
    ensures var s := InitialState().(car := Some(Car(1000, 100, "Pune")),
                                     startDate := Some(0), endDate := Some(DateUtils.MsPerDay),
                                     pickupLocation := "Pune", dropoffLocation := "Pune");
            var before := RunEffect(s, Answered(true, "Car is available"));
            var after := Recalculate(before.(endDate := Some(2 * DateUtils.MsPerDay)));
            && SubmitEnabled(before)
            && after.request.Some? && after.request != Recalculate(s).request
            && SubmitEnabled(after.state)
  {
    var s := InitialState().(car := Some(Car(1000, 100, "Pune")),
                             startDate := Some(0), endDate := Some(DateUtils.MsPerDay),
                             pickupLocation := "Pune", dropoffLocation := "Pune");
    NormalizedRangeValid(Daily, 0, DateUtils.MsPerDay, s.startTime, s.endTime);
    NormalizedRangeValid(Daily, 0, 2 * DateUtils.MsPerDay, s.startTime, s.endTime);
    DateUtils.WholeDays(0, 1);
    DateUtils.WholeDays(0, 2);
  }

  /** A daily interval covers its days whole: from the start day's first to
      the end day's last millisecond is `end day - start day + 1` started
      days. */
  lemma DailyIntervalDays(startDate: int, endDate: int, startTime: TimeGrid.Slot, endTime: TimeGrid.Slot)
    requires DayOf(startDate) <= DayOf(endDate)
    ensures var iv := Normalize(Daily, startDate, endDate, startTime, endTime);
            DateUtils.DaysBetween(iv.start, iv.end) == DayOf(endDate) - DayOf(startDate) + 1
  {
    var iv := Normalize(Daily, startDate, endDate, startTime, endTime);
    var M := DateUtils.MsPerDay;
    var k := DayOf(endDate) - DayOf(startDate);
    assert iv.start == DayOf(startDate) * M by {
      assert iv.start == DayOf(iv.start) * M + TimeOfDay(iv.start);
    }
    assert iv.end == DayOf(endDate) * M + M - 1 by {
      assert iv.end == DayOf(iv.end) * M + TimeOfDay(iv.end);
    }
    assert iv.end - iv.start == k * M + M - 1;
    assert (k + 1) * M == k * M + M;
    DateUtils.CeilUnitsUnique(k * M + M - 1, M, k + 1);
  }

  /** The recalculation as the form evidently intends it. It differs from
      `Recalculate` in two ways. A new valid interval clears the previous
      verdict, so the button stays disabled until the service has answered
      for that interval. A daily booking whose pickers hold the same instant,
      which the range check accepts as the whole of that day, is priced as
      one day instead of zero days. Every other price is the page's own. */
  function RecalculateCorrected(s: FormState): (r: Recalculation)
    ensures r.request == Recalculate(s).request
    ensures r.request.None? ==> r.state == Recalculate(s).state
    ensures r.request.Some? ==> !r.state.isCarAvailable && !SubmitEnabled(r.state)
    ensures r.request.Some? ==> r.state.duration >= 1
    ensures r.request.Some? && Recalculate(s).state.duration >= 1 ==>
              r.state == Recalculate(s).state.(isCarAvailable := false)
    ensures r.request.Some? && Recalculate(s).state.duration == 0 ==>
              && s.bookingType == Daily && s.startDate == s.endDate
              && r.state.duration == 1 && r.state.totalAmount == s.car.value.pricePerDay
              && r.state == Recalculate(s).state.(isCarAvailable := false, duration := 1,
                                                  totalAmount := s.car.value.pricePerDay)
  {
    var r := Recalculate(s);
    if r.request.None? then r
    else if r.state.duration >= 1 then
      Recalculation(r.state.(isCarAvailable := false), r.request)
    else
      Recalculation(r.state.(duration := 1, totalAmount := s.car.value.pricePerDay,
                             isCarAvailable := false), r.request)
  }

  /** The whole effect with the corrected recalculation. */
  function RunEffectCorrected(s: FormState, reply: AvailabilityReply): (r: FormState)
    ensures SubmitEnabled(r) ==>
              && Complete(s) && RecalculateCorrected(s).request == Some(FormInterval(s))
              && reply.Answered? && reply.available
  {
    var rc := RecalculateCorrected(s);
    if rc.request.Some? then ReceiveAvailability(rc.state, reply) else rc.state
  }

  /** On the example where the as-written form keeps a stale verdict, the
      corrected form disables the button as soon as the end date moves, and
      enables it again once the service says the car is free for the new
      interval, at the page's own price (two days at 1000). */
  lemma CorrectedClearsStaleVerdict()
    ensures var s := InitialState().(car := Some(Car(1000, 100, "Pune")),
                                     startDate := Some(0), endDate := Some(DateUtils.MsPerDay),
                                     pickupLocation := "Pune", dropoffLocation := "Pune");
            var before := RunEffectCorrected(s, Answered(true, "Car is available"));
            var moved := before.(endDate := Some(2 * DateUtils.MsPerDay));
            var after := RecalculateCorrected(moved);
            && SubmitEnabled(before)
            && after.request == Some(FormInterval(moved))
            && !SubmitEnabled(after.state)
            && SubmitEnabled(ReceiveAvailability(after.state, Answered(true, "Car is available")))
            && after.state.totalAmount == 2000
  {
    var s := InitialState().(car := Some(Car(1000, 100, "Pune")),
                             startDate := Some(0), endDate := Some(DateUtils.MsPerDay),
                             pickupLocation := "Pune", dropoffLocation := "Pune");
    NormalizedRangeValid(Daily, 0, DateUtils.MsPerDay, s.startTime, s.endTime);
    NormalizedRangeValid(Daily, 0, 2 * DateUtils.MsPerDay, s.startTime, s.endTime);
  }

  /** A same-day daily booking, which the as-written form prices at zero, is
      priced at one day by the corrected form, and can be submitted once the
      service says the car is free. */
  lemma CorrectedSameDayDailyBookable(s: FormState, reply: AvailabilityReply)
    requires Complete(s) && s.bookingType == Daily && s.startDate == s.endDate
    requires s.car.value.pricePerDay > 0 && !s.bookingLoading
    ensures RecalculateCorrected(s).request.Some?
    ensures RecalculateCorrected(s).state.duration == 1
    ensures RecalculateCorrected(s).state.totalAmount == s.car.value.pricePerDay
    ensures reply.Answered? && reply.available ==> SubmitEnabled(RunEffectCorrected(s, reply))
  {
    NormalizedRangeValid(Daily, s.startDate.value, s.endDate.value, s.startTime, s.endTime);
  }
}

=== FILE: car_form.dfy ===
/** The admin car form shared by the add and edit pages: its fields, the
    field-by-field validator, the image-URL rule, the comma-separated
    features codec, the change handler and the payload sent on save.

    Number inputs are read as `Option<int>`: `None` stands for an input that
    is empty or not a number, which every numeric rule rejects. */
module CarForm {
  import opened Wrappers
  import Strings

  datatype CarFormData = CarFormData(
    title: string,
    brand: string,
    model: string,
    year: Option<int>,
    pricePerDay: Option<int>,
    pricePerHour: Option<int>,
    fuelType: string,
    transmission: string,
    mileage: Option<int>,
    seats: Option<int>,
    image: string,
    location: string,
    description: string,
    features: string,
    isAvailable: Option<bool>)

  datatype Field =
    | Title | Brand | Model | Year | PricePerDay | PricePerHour | FuelType
    | Transmission | Mileage | Seats | Image | Location | Description
    | Features | IsAvailable

  /** What an input stores: text, a number reading, or a checkbox state
      (`None` when the form has no such key). */
  datatype FieldValue = Text(text: string) | Number(number: Option<int>) | Flag(flag: Option<bool>)

  function Get(f: CarFormData, field: Field): FieldValue {
    match field
    case Title => Text(f.title)
    case Brand => Text(f.brand)
    case Model => Text(f.model)
    case Year => Number(f.year)
    case PricePerDay => Number(f.pricePerDay)
    case PricePerHour => Number(f.pricePerHour)
    case FuelType => Text(f.fuelType)
    case Transmission => Text(f.transmission)
    case Mileage => Number(f.mileage)
    case Seats => Number(f.seats)
    case Image => Text(f.image)
    case Location => Text(f.location)
    case Description => Text(f.description)
    case Features => Text(f.features)
    case IsAvailable => Flag(f.isAvailable)
  }

  /** The kind of value the input of that name produces. */
  predicate Fits(field: Field, v: FieldValue) {
    match field
    case Year | PricePerDay | PricePerHour | Mileage | Seats => v.Number?
    case IsAvailable => v.Flag?
    case _ => v.Text?
  }

  /** `{ ...formData, [field]: v }` */
  function Set(f: CarFormData, field: Field, v: FieldValue): (r: CarFormData)
    requires Fits(field, v)
    ensures Get(r, field) == v
    ensures forall g :: g != field ==> Get(r, g) == Get(f, g)
  {
    match field
    case Title => f.(title := v.text)
    case Brand => f.(brand := v.text)
    case Model => f.(model := v.text)
    case Year => f.(year := v.number)
    case PricePerDay => f.(pricePerDay := v.number)
    case PricePerHour => f.(pricePerHour := v.number)
    case FuelType => f.(fuelType := v.text)
    case Transmission => f.(transmission := v.text)
    case Mileage => f.(mileage := v.number)
    case Seats => f.(seats := v.number)
    case Image => f.(image := v.text)
    case Location => f.(location := v.text)
    case Description => f.(description := v.text)
    case Features => f.(features := v.text)
    case IsAvailable => f.(isAvailable := v.flag)
  }

  const TitleMessage: string := "Car title is required"
  const BrandMessage: string := "Brand is required"
  const ModelMessage: string := "Model is required"
  const YearMessage: string := "Valid year (1990-current+1) is required"
  const PricePerDayMessage: string := "Price per day must be a positive number"
  const PricePerHourMessage: string := "Price per hour must be a positive number"
  const MileageMessage: string := "Mileage must be a non-negative number"
  const SeatsMessage: string := "Seats must be between 2 and 8"
  const ImageRequiredMessage: string := "Image URL is required"
  const ImageFormatMessage: string := "Please enter a valid image URL (png, jpg, gif, svg, webp)"
  const LocationMessage: string := "Location is required"
  const DescriptionMessage: string := "Description cannot exceed 500 characters"

  const MinYear: int := 1990
  const MaxDescriptionLength: nat := 500

  const ImageExtensions: seq<string> := ["png", "jpg", "jpeg", "gif", "svg", "webp"]

  /** The part of an image URL after its scheme, as `\S+\.(png|jpe?g|gif|svg|webp)$`
      with the `i` flag reads it: no whitespace, at least one character, a
      dot, and one of the extensions in any letter case. */
  predicate ImagePath(r: string) {
    && Strings.NoWhitespace(r)
    && exists e :: e in ImageExtensions && |r| >= |e| + 2 && Strings.EqualsIgnoreCase(r[|r| - |e| - 1..], "." + e)
  }

  /** A path the pattern accepts has at least five characters (`a.png`). */
  lemma ImagePathLength(s: string, k: nat)
    ensures k <= |s| && ImagePath(s[k..]) ==> |s| >= k + 5
  {
    if k <= |s| && ImagePath(s[k..]) {
      var r := s[k..];
      var e :| e in ImageExtensions && |r| >= |e| + 2 && Strings.EqualsIgnoreCase(r[|r| - |e| - 1..], "." + e);
      ExtensionLength(e);
    }
  }

  lemma ExtensionLength(e: string)
    requires e in ImageExtensions
    ensures |e| >= 3
  {
  }

  predicate StartsWithIgnoreCase(s: string, p: string) {
    |s| >= |p| && Strings.EqualsIgnoreCase(s[..|p|], p)
  }

  /** `/^https?:\/\/\S+\.(png|jpe?g|gif|svg|webp)$/i.test(s)` */
  predicate ImageUrlOk(s: string)
    ensures ImageUrlOk(s) ==> |s| >= 12
  {
    ImagePathLength(s, 7);
    ImagePathLength(s, 8);
    || (StartsWithIgnoreCase(s, "http://") && ImagePath(s[7..]))
    || (StartsWithIgnoreCase(s, "https://") && ImagePath(s[8..]))
  }

  /** The fields the validator looks at. */
  const ValidatedFields: set<Field> :=
    {Title, Brand, Model, Year, PricePerDay, PricePerHour, Mileage, Seats, Image, Location, Description}

  /** The error one validated field gets, if any. */
  function Problem(f: CarFormData, field: Field, currentYear: int): Option<string> {
    match field
    case Title => if Strings.IsBlank(f.title) then Some(TitleMessage) else None
    case Brand => if Strings.IsBlank(f.brand) then Some(BrandMessage) else None
    case Model => if Strings.IsBlank(f.model) then Some(ModelMessage) else None
    case Year =>
      if f.year.None? || f.year.value < MinYear || f.year.value > currentYear + 1 then Some(YearMessage)
      else None
    case PricePerDay =>
      if f.pricePerDay.None? || f.pricePerDay.value <= 0 then Some(PricePerDayMessage) else None
    case PricePerHour =>
      if f.pricePerHour.None? || f.pricePerHour.value <= 0 then Some(PricePerHourMessage) else None
    case Mileage =>
      if f.mileage.None? || f.mileage.value < 0 then Some(MileageMessage) else None
    case Seats =>
      if f.seats.None? || f.seats.value < 2 || f.seats.value > 8 then Some(SeatsMessage) else None
    case Image =>
      if Strings.IsBlank(f.image) then Some(ImageRequiredMessage)
      else if !ImageUrlOk(f.image) then Some(ImageFormatMessage)
      else None
    case Location => if Strings.IsBlank(f.location) then Some(LocationMessage) else None
    case Description =>
      if Strings.Utf16Length(f.description) > MaxDescriptionLength then Some(DescriptionMessage) else None
    case _ => None
  }

  /** `validateForm()`: every failing field gets its message; nothing stops at
      the first failure. `currentYear` is `new Date().getFullYear()`. The
      contract below only says that the map collects `Problem` field by
      field; what each field's rule is lives in `ValidateTextFields`,
      `ValidateNumberFields`, `ValidateImage` and `ValidateOtherFields`. */
  function Validate(f: CarFormData, currentYear: int): (errors: map<Field, string>)
    ensures forall g :: g in errors <==> g in ValidatedFields && Problem(f, g, currentYear).Some?
    ensures forall g :: g in errors ==> errors[g] == Problem(f, g, currentYear).value
  {
    map g | g in ValidatedFields && Problem(f, g, currentYear).Some? :: Problem(f, g, currentYear).value
  }

  /** The text fields are required: each gets an error exactly when it is
      blank after trimming. */
  lemma ValidateTextFields(f: CarFormData, currentYear: int)
    ensures var errors := Validate(f, currentYear);
            && (Title in errors <==> Strings.IsBlank(f.title))
            && (Brand in errors <==> Strings.IsBlank(f.brand))
            && (Model in errors <==> Strings.IsBlank(f.model))
            && (Location in errors <==> Strings.IsBlank(f.location))
  {
    var errors := Validate(f, currentYear);
    assert Title in errors <==> Problem(f, Title, currentYear).Some?;
    assert Brand in errors <==> Problem(f, Brand, currentYear).Some?;
    assert Model in errors <==> Problem(f, Model, currentYear).Some?;
    assert Location in errors <==> Problem(f, Location, currentYear).Some?;
  }

  /** The numeric fields: a year from 1990 to next year, positive prices, a
      non-negative mileage and two to eight seats; an empty or non-numeric
      input always fails. */
  lemma ValidateNumberFields(f: CarFormData, currentYear: int)
    ensures var errors := Validate(f, currentYear);
            && (Year in errors <==> f.year.None? || f.year.value < 1990 || f.year.value > currentYear + 1)
            && (PricePerDay in errors <==> f.pricePerDay.None? || f.pricePerDay.value <= 0)
            && (PricePerHour in errors <==> f.pricePerHour.None? || f.pricePerHour.value <= 0)
            && (Mileage in errors <==> f.mileage.None? || f.mileage.value < 0)
            && (Seats in errors <==> f.seats.None? || !(2 <= f.seats.value <= 8))
  {
    var errors := Validate(f, currentYear);
    assert Year in errors <==> Problem(f, Year, currentYear).Some?;
    assert PricePerDay in errors <==> Problem(f, PricePerDay, currentYear).Some?;
    assert PricePerHour in errors <==> Problem(f, PricePerHour, currentYear).Some?;
    assert Mileage in errors <==> Problem(f, Mileage, currentYear).Some?;
    assert Seats in errors <==> Problem(f, Seats, currentYear).Some?;
  }

  /** The description may hold at most 500 UTF-16 code units; fuel type,
      transmission, features and availability are never checked, and every
      reported error has a non-empty message. */
  lemma ValidateOtherFields(f: CarFormData, currentYear: int)
    ensures var errors := Validate(f, currentYear);
            && (Description in errors <==> Strings.Utf16Length(f.description) > 500)
            && FuelType !in errors && Transmission !in errors && Features !in errors && IsAvailable !in errors
            && (forall g :: g in errors ==> errors[g] != "")
  {
    var errors := Validate(f, currentYear);
    assert Description in errors <==> Problem(f, Description, currentYear).Some?;
    assert Problem(f, FuelType, currentYear).None? && Problem(f, Transmission, currentYear).None?;
    assert Problem(f, Features, currentYear).None? && Problem(f, IsAvailable, currentYear).None?;
    forall g | g in errors ensures errors[g] != "" {
      assert errors[g] == Problem(f, g, currentYear).value;
      ProblemMessage(f, g, currentYear);
    }
  }

  lemma ProblemMessage(f: CarFormData, g: Field, currentYear: int)
    ensures Problem(f, g, currentYear).Some? ==> Problem(f, g, currentYear).value != ""
  {
    match g
    case Image =>
    case Description =>
    case _ =>
  }

  /** The image gets exactly one of two errors: "required" when blank, the
      format error when it is not blank but fails the URL pattern. */
  lemma ValidateImage(f: CarFormData, currentYear: int)
    ensures var errors := Validate(f, currentYear);
            && (Image in errors <==> Strings.IsBlank(f.image) || !ImageUrlOk(f.image))
            && (Image in errors ==> (errors[Image] == ImageRequiredMessage <==> Strings.IsBlank(f.image)))
            && (Image in errors ==> (errors[Image] == ImageFormatMessage <==> !Strings.IsBlank(f.image)))
  {
    var errors := Validate(f, currentYear);
    assert Image in errors <==> Problem(f, Image, currentYear).Some?;
  }

  /** `Object.keys(errors).length === 0` */
  predicate Valid(f: CarFormData, currentYear: int) {
    Validate(f, currentYear) == map[]
  }

  /** A feature entry as the save path produces it. */
  predicate WellFormedFeature(x: string) {
    x != "" && Strings.Trimmed(x) && ',' !in x
  }

  /** `.map(f => f.trim()).filter(f => f)` */
  function CleanEntries(parts: seq<string>): (xs: seq<string>)
    requires forall p :: p in parts ==> ',' !in p
    ensures forall x :: x in xs ==> WellFormedFeature(x)
    ensures |xs| <= |parts|
  {
    if |parts| == 0 then []
    else
      assert parts[0] in parts;
      Strings.TrimAddsNothing(parts[0], ',');
      var t := Strings.Trim(parts[0]);
      (if t == "" then [] else [t]) + CleanEntries(parts[1..])
  }

  /** `features.split(',').map(f => f.trim()).filter(f => f)`: every entry
      is non-empty, trimmed and free of commas. */
  function ParseFeatures(s: string): (xs: seq<string>)
    ensures forall x :: x in xs ==> WellFormedFeature(x)
  {
    CleanEntries(Strings.Split(s, ','))
  }

  /** `features.join(', ')`, how the edit page shows a stored list. */
  function JoinFeatures(xs: seq<string>): (r: string)
    ensures xs == [] ==> r == ""
    ensures |xs| > 0 ==> xs[0] <= r
  {
    Strings.Join(xs, ", ")
  }

  lemma CleanEntriesCons(a: string, rest: seq<string>)
    requires ',' !in a && forall p :: p in rest ==> ',' !in p
    ensures CleanEntries([a] + rest) ==
              (if Strings.Trim(a) == "" then [] else [Strings.Trim(a)]) + CleanEntries(rest)
  {
    assert ([a] + rest)[0] == a;
    assert ([a] + rest)[1..] == rest;
  }

  /** An entry with at most one leading space comes back trimmed. */
  lemma CleanHead(p: string, x: string, rest: seq<string>)
    requires p == "" || p == " "
    requires WellFormedFeature(x) && forall q :: q in rest ==> ',' !in q
    ensures ',' !in p + x
    ensures CleanEntries([p + x] + rest) == [x] + CleanEntries(rest)
  {
    if p == "" {
      assert p + x == x;
    } else {
      assert Strings.AllWhitespace(p);
      assert forall k :: 0 <= k < |p + x| ==> (p + x)[k] == ' ' || (p + x)[k] in x;
    }
    Strings.TrimDropsLeadingWhitespace(p, x);
    CleanEntriesCons(p + x, rest);
  }

  /** `p + xs.join(', ')` with `p` empty or one space: every entry comes back
      from the split with at most one leading space, which `trim` removes. */
  lemma {:induction false} RoundTripFrom(p: string, xs: seq<string>)
    requires p == "" || p == " "
    requires |xs| > 0 && forall x :: x in xs ==> WellFormedFeature(x)
    ensures CleanEntries(Strings.Split(p + JoinFeatures(xs), ',')) == xs
    decreases |xs|
  {
    assert xs[0] in xs;
    var whole := p + JoinFeatures(xs);
    if |xs| == 1 {
      JoinOne(xs);
      RoundTripSingle(p, xs[0]);
      assert xs == [xs[0]];
    } else {
      var rest := JoinFeatures(xs[1..]);
      var tail := Strings.Split(" " + rest, ',');
      JoinMore(p, xs);
      CleanHead(p, xs[0], tail);
      Strings.SplitAfterPrefix(p + xs[0], " " + rest, ',');
      assert forall x :: x in xs[1..] ==> x in xs;
      RoundTripFrom(" ", xs[1..]);
      calc {
        CleanEntries(Strings.Split(whole, ','));
        CleanEntries([p + xs[0]] + tail);
        [xs[0]] + CleanEntries(tail);
        [xs[0]] + xs[1..];
        { HeadTail(xs); }
        xs;
      }
    }
  }

  /** The last entry of a join comes back on its own. */
  lemma RoundTripSingle(p: string, x: string)
    requires p == "" || p == " "
    requires WellFormedFeature(x)
    ensures CleanEntries(Strings.Split(p + x, ',')) == [x]
  {
    CleanHead(p, x, []);
    Strings.SplitWithoutSeparator(p + x, ',');
    assert [p + x] == [p + x] + [];
  }

  lemma HeadTail(xs: seq<string>)
    requires |xs| > 0
    ensures [xs[0]] + xs[1..] == xs
  {
  }

  lemma JoinOne(xs: seq<string>)
    requires |xs| == 1
    ensures JoinFeatures(xs) == xs[0]
  {
  }

  lemma JoinMore(p: string, xs: seq<string>)
    requires |xs| >= 2
    ensures p + JoinFeatures(xs) == (p + xs[0]) + [','] + (" " + JoinFeatures(xs[1..]))
  {
    assert JoinFeatures(xs) == xs[0] + ", " + JoinFeatures(xs[1..]);
  }

  /** Saving what the edit page shows gives back the stored list, for any
      list of well-formed entries. */
  lemma FeaturesRoundTrip(xs: seq<string>)
    requires forall x :: x in xs ==> WellFormedFeature(x)
    ensures ParseFeatures(JoinFeatures(xs)) == xs
  {
    if |xs| == 0 {
      assert JoinFeatures(xs) == "";
    } else {
      RoundTripFrom("", xs);
      assert "" + JoinFeatures(xs) == JoinFeatures(xs);
    }
  }

  /** Parsing is idempotent through the edit page: re-showing and re-saving
      a parsed list changes nothing. */
  lemma ParseFeaturesStable(s: string)
    ensures ParseFeatures(JoinFeatures(ParseFeatures(s))) == ParseFeatures(s)
  {
    FeaturesRoundTrip(ParseFeatures(s));
  }

  /** The page state the change handler works on. */
  datatype FormPage = FormPage(form: CarFormData, errors: map<Field, string>)

  /** A change event: its input's name and what the handler reads from it
      (`checked` for a checkbox, `value` otherwise). */
  datatype ChangeEvent =
    | TextChange(name: Field, text: string)
    | NumberChange(name: Field, number: Option<int>)
    | CheckboxChange(name: Field, checked: bool)

  function Stored(e: ChangeEvent): FieldValue {
    match e
    case TextChange(_, t) => Text(t)
    case NumberChange(_, n) => Number(n)
    case CheckboxChange(_, c) => Flag(Some(c))
  }

  /** `handleChange(e)`: stores the input's value under its name and, when
      that field shows an error, blanks that error only. */
  function HandleChange(p: FormPage, e: ChangeEvent): (r: FormPage)
    requires Fits(e.name, Stored(e))
    ensures Get(r.form, e.name) == Stored(e)
    ensures forall g :: g != e.name ==> Get(r.form, g) == Get(p.form, g)
    ensures r.errors.Keys == p.errors.Keys
    ensures forall g :: g in r.errors && g != e.name ==> r.errors[g] == p.errors[g]
    ensures e.name in r.errors ==> r.errors[e.name] == ""
  {
    var form := Set(p.form, e.name, Stored(e));
    if e.name in p.errors && p.errors[e.name] != "" then
      FormPage(form, p.errors[e.name := ""])
    else
      FormPage(form, p.errors)
  }

  /** The record sent on save. */
  datatype CarPayload = CarPayload(
    title: string,
    brand: string,
    model: string,
    year: int,
    pricePerDay: int,
    pricePerHour: int,
    fuelType: string,
    transmission: string,
    mileage: int,
    seats: int,
    image: string,
    location: string,
    description: string,
    features: seq<string>,
    isAvailable: Option<bool>)

  datatype SubmitOutcome = Rejected(errors: map<Field, string>) | Saved(payload: CarPayload)

  /** `handleSubmit`: nothing is sent unless the form validates; the payload
      carries the form's numbers and its parsed feature list. */
  function Submit(f: CarFormData, currentYear: int): (out: SubmitOutcome)
    ensures out.Saved? <==> Valid(f, currentYear)
    ensures out.Rejected? ==> out.errors == Validate(f, currentYear) && out.errors != map[]
    ensures out.Saved? ==>
              && Some(out.payload.year) == f.year && MinYear <= out.payload.year <= currentYear + 1
              && Some(out.payload.pricePerDay) == f.pricePerDay && out.payload.pricePerDay > 0
              && Some(out.payload.pricePerHour) == f.pricePerHour && out.payload.pricePerHour > 0
              && Some(out.payload.mileage) == f.mileage && out.payload.mileage >= 0
              && Some(out.payload.seats) == f.seats && 2 <= out.payload.seats <= 8
              && ImageUrlOk(out.payload.image)
              && out.payload.features == ParseFeatures(f.features)
              && out.payload.title == f.title && out.payload.isAvailable == f.isAvailable
              && out.payload.brand == f.brand && out.payload.model == f.model
              && out.payload.fuelType == f.fuelType && out.payload.transmission == f.transmission
              && out.payload.image == f.image && out.payload.location == f.location
              && out.payload.description == f.description
  {
    var errors := Validate(f, currentYear);
    if errors != map[] then Rejected(errors)
    else
      ValidateNumberFields(f, currentYear);
      ValidateImage(f, currentYear);
      Saved(CarPayload(f.title, f.brand, f.model, f.year.value, f.pricePerDay.value,
                       f.pricePerHour.value, f.fuelType, f.transmission, f.mileage.value,
                       f.seats.value, f.image, f.location, f.description,
                       ParseFeatures(f.features), f.isAvailable))
  }
}

=== FILE: cars_page.dfy ===
/** The public car list: its filters, their address-bar form, "clear
    filters" and the sort select. */
module CarsPage {
  import opened Wrappers
  import opened Filters
  import Strings

  const DefaultSortBy: string := "createdAt"
  const DefaultSortOrder: string := "desc"

  /** The filters in declaration order with the fallbacks used on load. */
  const Schema: seq<FilterSpec> := [
    ("search", TextOr("")), ("brand", TextOr("")), ("fuelType", TextOr("")),
    ("transmission", TextOr("")), ("minPrice", TextOr("")), ("maxPrice", TextOr("")),
    ("sortBy", TextOr(DefaultSortBy)), ("sortOrder", TextOr(DefaultSortOrder)),
    ("page", IntOr(1))]

  lemma SchemaWellFormed()
    ensures WellFormedSchema(Schema)
  {
  }

  /** The filters the page starts from. */
  function InitialFilters(url: Url): (o: seq<Entry>)
    ensures Conforms(o, Schema) && UniqueKeys(o)
  {
    SchemaWellFormed();
    Read(url, Schema)
  }

  /** `clearFilters()`: every text filter empty, newest first, page 1 — the
      very filters an empty address bar yields, which is what the page
      writes. */
  function ClearFilters(): (o: seq<Entry>)
    ensures o == InitialFilters([])
    ensures Lookup(o, "sortBy") == Some(Str("createdAt")) && Lookup(o, "sortOrder") == Some(Str("desc"))
    ensures Lookup(o, "page") == Some(Num(1)) && Lookup(o, "search") == Some(Str(""))
  {
    SchemaWellFormed();
    ReadEmptyUrl(Schema);
    var o := [("search", Str("")), ("brand", Str("")), ("fuelType", Str("")),
              ("transmission", Str("")), ("minPrice", Str("")), ("maxPrice", Str("")),
              ("sortBy", Str("createdAt")), ("sortOrder", Str("desc")), ("page", Num(1))];
    assert Defaults(Schema) == o;
    LookupAt(o, 0);
    LookupAt(o, 6);
    LookupAt(o, 7);
    LookupAt(o, 8);
    o
  }

  /** The address bar keeps the page's filters: reloading from the
      parameters `updateSearchParams` wrote (truthy values only) restores
      them, whatever they were. */
  lemma AddressBarRoundTrip(o: seq<Entry>)
    requires Conforms(o, Schema)
    ensures InitialFilters(WriteUrl(o, Truthy)) == o
  {
    SchemaWellFormed();
    ReadWriteRoundTrip(o, Truthy, Schema);
  }

  /** Clearing writes an empty address bar although the cleared filters
      hold truthy sort values; reloading either gives the same filters. */
  lemma ClearedAddressBars()
    ensures WriteUrl(ClearFilters(), Truthy) != []
    ensures InitialFilters(WriteUrl(ClearFilters(), Truthy)) == InitialFilters([])
  {
    var o := ClearFilters();
    var e := ("sortBy", Str("createdAt"));
    assert e in o && Keeps(Truthy, e.1);
    assert e in Query(o, Truthy);
    AddressBarRoundTrip(o);
  }

  /** Moving to page `n` with the corrected page change keeps the filters
      in shape and the address bar reloads to page `n`. */
  lemma PagingReloads(o: seq<Entry>, n: int)
    requires Conforms(o, Schema) && n != 0
    ensures UniqueKeys(o)
    ensures var r := PageChange(o, n);
            && Conforms(r, Schema)
            && Lookup(InitialFilters(WriteUrl(r, Truthy)), "page") == Some(Num(n))
  {
    SchemaWellFormed();
    DistinctKeysUnique(o);
    assert o[8].0 == "page";
    AssignConforms(o, Schema, 8, Num(n));
    AddressBarRoundTrip(PageChange(o, n));
  }

  /** The options of the sort select, `field-order`. */
  const SortOptions: seq<string> := [
    "createdAt-desc", "createdAt-asc", "pricePerDay-asc", "pricePerDay-desc", "totalBookings-desc"]

  /** `${filters.sortBy}-${filters.sortOrder}`, the select's shown value;
      a missing key prints as `undefined`. Splitting it on `-`, as the change
      handler does, gives back the two texts when neither holds a `-`. */
  function SortSelectValue(o: seq<Entry>): (shown: string)
    ensures var field, order := Text(Lookup(o, "sortBy").GetOr(Undefined)), Text(Lookup(o, "sortOrder").GetOr(Undefined));
            '-' !in field && '-' !in order ==> Strings.Split(shown, '-') == [field, order]
  {
    var field, order := Text(Lookup(o, "sortBy").GetOr(Undefined)), Text(Lookup(o, "sortOrder").GetOr(Undefined));
    assert '-' !in field && '-' !in order ==> Strings.Split(field + "-" + order, '-') == [field, order] by {
      if '-' !in field && '-' !in order {
        SplitPair(field, order);
      }
    }
    field + "-" + order
  }

  /** The sort select's change handler: the choice is split on `-` into
      `sortBy` and `sortOrder` (`undefined` when there is no second part);
      unlike every other filter change it does not reset `page`. */
  function SortChange(o: seq<Entry>, choice: string): (r: seq<Entry>)
    requires UniqueKeys(o)
    ensures UniqueKeys(r)
    ensures Lookup(r, "sortBy") == Some(Str(Strings.Split(choice, '-')[0]))
    ensures '-' in choice ==>
              && |Strings.Split(choice, '-')| >= 2
              && Lookup(r, "sortOrder") == Some(Str(Strings.Split(choice, '-')[1]))
              && Lookup(r, "sortBy").value.text != choice
    ensures '-' !in choice ==> Lookup(r, "sortOrder") == Some(Undefined)
    ensures forall k :: k != "sortBy" && k != "sortOrder" ==> Lookup(r, k) == Lookup(o, k)
  {
    var parts := Strings.Split(choice, '-');
    var order := if |parts| > 1 then Str(parts[1]) else Undefined;
    assert ('-' in choice ==> |parts| >= 2 && parts[0] != choice) && ('-' !in choice ==> |parts| == 1) by {
      if '-' in choice {
        SplitHasTwoParts(choice);
      } else {
        Strings.SplitWithoutSeparator(choice, '-');
      }
    }
    Assign(Assign(o, "sortBy", Str(parts[0])), "sortOrder", order)
  }

  lemma SplitHasTwoParts(s: string)
    requires '-' in s
    ensures |Strings.Split(s, '-')| >= 2 && Strings.Split(s, '-')[0] != s
  {
    var i :| 0 <= i < |s| && s[i] == '-';
    var a := s[..i];
    var j := i;
    while j > 0 && '-' in s[..j]
      invariant 0 <= j <= i && s[j] == '-'
      decreases j
    {
      var k :| 0 <= k < j && s[..j][k] == '-';
      j := k;
    }
    assert '-' !in s[..j];
    assert s == s[..j] + ['-'] + s[j + 1..];
    Strings.SplitAfterPrefix(s[..j], s[j + 1..], '-');
  }

  /** Choosing `field-order` shows `field-order` again and sorts by `field` in
      direction `order`; the page stays where it was. */
  lemma SortChoiceShown(o: seq<Entry>, field: string, order: string)
    requires UniqueKeys(o)
    requires '-' !in field && '-' !in order
    ensures var r := SortChange(o, field + "-" + order);
            && Lookup(r, "sortBy") == Some(Str(field))
            && Lookup(r, "sortOrder") == Some(Str(order))
            && SortSelectValue(r) == field + "-" + order
            && Lookup(r, "page") == Lookup(o, "page")
  {
    var choice := field + "-" + order;
    SplitPair(field, order);
    var r := SortChange(o, choice);
    assert Lookup(r, "sortBy") == Some(Str(field));
    assert Lookup(r, "sortOrder") == Some(Str(order));
    PageUntouched(o, choice);
  }

  lemma PageUntouched(o: seq<Entry>, choice: string)
    requires UniqueKeys(o)
    ensures Lookup(SortChange(o, choice), "page") == Lookup(o, "page")
  {
    var page := "page";
    assert page[0] == 'p';
    assert page != "sortBy" && page != "sortOrder";
  }

  lemma SplitPair(field: string, order: string)
    requires '-' !in field && '-' !in order
    ensures '-' in field + "-" + order
    ensures Strings.Split(field + "-" + order, '-') == [field, order]
  {
    assert field + "-" + order == field + ['-'] + order;
    assert (field + "-" + order)[|field|] == '-';
    Strings.SplitAfterPrefix(field, order, '-');
    Strings.SplitWithoutSeparator(order, '-');
  }

  /** Every offered option round-trips through the select. */
  lemma SortOptionsRoundTrip(o: seq<Entry>, choice: string)
    requires UniqueKeys(o) && choice in SortOptions
    ensures SortSelectValue(SortChange(o, choice)) == choice
  {
    if choice == "createdAt-desc" {
      assert choice == "createdAt" + "-" + "desc";
      SortChoiceShown(o, "createdAt", "desc");
    } else if choice == "createdAt-asc" {
      assert choice == "createdAt" + "-" + "asc";
      SortChoiceShown(o, "createdAt", "asc");
    } else if choice == "pricePerDay-asc" {
      assert choice == "pricePerDay" + "-" + "asc";
      SortChoiceShown(o, "pricePerDay", "asc");
    } else if choice == "pricePerDay-desc" {
      assert choice == "pricePerDay" + "-" + "desc";
      SortChoiceShown(o, "pricePerDay", "desc");
    } else {
      assert choice == "totalBookings" + "-" + "desc";
      SortChoiceShown(o, "totalBookings", "desc");
    }
  }
}

=== FILE: date_utils.dfy ===
/** The date arithmetic of the client's date utilities. A `Date` is its
    time value: an integer count of milliseconds since the epoch. Days are
    taken to be a uniform 86 400 000 ms (no time zones, no daylight saving). */
module DateUtils {

  const MsPerMinute: nat := 60_000
  const MsPerHour: nat := 3_600_000
  const MsPerDay: nat := 86_400_000

  function Abs(x: int): nat {
    if x < 0 then -x else x
  }

  /** `Math.ceil(span / unit)` on a non-negative span: the least number of
      whole units that covers the span. */
  function CeilUnits(span: nat, unit: nat): (n: nat)
    requires unit > 0
    ensures span <= n * unit
    ensures n == 0 || (n - 1) * unit < span
    ensures n == 0 <==> span == 0
  {
    var q := (span + unit - 1) / unit;
    var r := (span + unit - 1) % unit;
    assert span + unit - 1 == q * unit + r && 0 <= r < unit;
    assert q * unit == span + unit - 1 - r;
    assert q == 0 ==> span == 0;
    assert q > 0 ==> (q - 1) * unit == q * unit - unit;
    q
  }

  /** `calculateDaysBetween(start, end)`: the number of started days between
      the two instants, in either order. */
  function DaysBetween(start: int, end: int): (d: nat)
    ensures Abs(end - start) <= d * MsPerDay
    ensures d == 0 || (d - 1) * MsPerDay < Abs(end - start)
    ensures d == 0 <==> start == end
  {
    CeilUnits(Abs(end - start), MsPerDay)
  }

  /** `calculateHoursBetween(start, end)`: the number of started hours
      between the two instants, in either order. */
  function HoursBetween(start: int, end: int): (h: nat)
    ensures Abs(end - start) <= h * MsPerHour
    ensures h == 0 || (h - 1) * MsPerHour < Abs(end - start)
    ensures h == 0 <==> start == end
  {
    CeilUnits(Abs(end - start), MsPerHour)
  }

  /** `isDateInPast(date)` with the current time passed in as `now`. */
  function IsDateInPast(date: int, now: int): (b: bool)
    ensures b <==> date < now
  {
    date < now
  }

  /** The ceiling bounds pin the count down: any count that satisfies them
      is the one `CeilUnits` computes. */
  lemma CeilUnitsUnique(span: nat, unit: nat, n: nat)
    requires unit > 0
    requires span <= n * unit
    requires n == 0 || (n - 1) * unit < span
    ensures n == CeilUnits(span, unit)
  {
    var c := CeilUnits(span, unit);
    if n < c {
      MulMonotone(n, c - 1, unit);
    } else if n > c {
      MulMonotone(c, n - 1, unit);
    }
  }

  lemma MulMonotone(a: nat, b: nat, u: nat)
    requires a <= b
    ensures a * u <= b * u
  {
  }

  /** Both counts ignore the order of their arguments (`Math.abs`). */
  lemma BetweenSymmetric(a: int, b: int)
    ensures DaysBetween(a, b) == DaysBetween(b, a)
    ensures HoursBetween(a, b) == HoursBetween(b, a)
  {
    assert Abs(b - a) == Abs(a - b);
  }

  /** Every non-empty span counts as at least one unit, and a span of at
      most one unit counts as exactly one: a 30-minute span is one hour,
      a 90-minute span is two. */
  lemma HoursExamples(t: int)
    ensures HoursBetween(t, t + 30 * MsPerMinute) == 1
    ensures HoursBetween(t, t + 90 * MsPerMinute) == 2
    ensures HoursBetween(t + 25 * MsPerHour, t) == 25
    ensures DaysBetween(t, t + 25 * MsPerHour) == 2
  {
    CeilUnitsUnique(30 * MsPerMinute, MsPerHour, 1);
    CeilUnitsUnique(90 * MsPerMinute, MsPerHour, 2);
    CeilUnitsUnique(25 * MsPerHour, MsPerHour, 25);
    CeilUnitsUnique(25 * MsPerHour, MsPerDay, 2);
  }

  /** Whole days: a span of exactly `k` days counts as `k` days and `24 k`
      hours. */
  lemma WholeDays(t: int, k: nat)
    ensures DaysBetween(t, t + k * MsPerDay) == k
    ensures HoursBetween(t, t + k * MsPerDay) == 24 * k
  {
    CeilUnitsUnique(k * MsPerDay, MsPerDay, k);
    assert k * MsPerDay == (24 * k) * MsPerHour;
    CeilUnitsUnique(k * MsPerDay, MsPerHour, 24 * k);
  }
}

=== FILE: edit_car.dfy ===
/** The admin "edit car" page: how a stored car fills the form, how a
    failed load is reported, and what re-saving a loaded car does.
    Validation, the change handler (including the availability checkbox)
    and the save payload are the shared car-form ones. */
module EditCar {
  import opened Wrappers
  import Strings
  import CarForm

  /** A car as the catalogue service returns it; any field may be missing. */
  datatype CarRecord = CarRecord(
    title: Option<string>,
    brand: Option<string>,
    model: Option<string>,
    year: Option<int>,
    pricePerDay: Option<int>,
    pricePerHour: Option<int>,
    fuelType: Option<string>,
    transmission: Option<string>,
    mileage: Option<int>,
    seats: Option<int>,
    image: Option<string>,
    location: Option<string>,
    description: Option<string>,
    features: Option<seq<string>>,
    isAvailable: Option<bool>)

  /** `value || fallback` on a string: empty and missing both fall back. */
  function TextOr(v: Option<string>, fallback: string): (s: string)
    ensures v.Some? && v.value != "" ==> s == v.value
    ensures !(v.Some? && v.value != "") ==> s == fallback
  {
    if v.Some? && v.value != "" then v.value else fallback
  }

  /** `value || ''` on a number: zero is falsy, so it empties the input
      just as a missing value does. */
  function NumberOrEmpty(v: Option<int>): (n: Option<int>)
    ensures n.Some? <==> v.Some? && v.value != 0
    ensures n.Some? ==> n == v
  {
    if v.Some? && v.value != 0 then v else None
  }

  /** The form before the car has loaded. */
  function InitialForm(): (f: CarForm.CarFormData)
    ensures f.isAvailable == Some(true)
    ensures f.fuelType == "Petrol" && f.transmission == "Automatic"
    ensures f.title == "" && f.brand == "" && f.model == "" && f.image == ""
    ensures f.location == "" && f.description == "" && f.features == ""
    ensures f.year.None? && f.pricePerDay.None? && f.pricePerHour.None?
    ensures f.mileage.None? && f.seats.None?
  {
    CarForm.CarFormData("", "", "", None, None, None, "Petrol", "Automatic",
                        None, None, "", "", "", "", Some(true))
  }

  /** Filling the form from a stored car: missing texts become empty, a
      missing fuel type or transmission becomes the default, a missing or
      zero number leaves its input empty, the feature list is shown joined
      with ", ", and availability is copied as it is. */
  function LoadForm(car: CarRecord): (f: CarForm.CarFormData)
    ensures f.title == car.title.GetOr("") && f.brand == car.brand.GetOr("")
    ensures f.model == car.model.GetOr("") && f.image == car.image.GetOr("")
    ensures f.location == car.location.GetOr("") && f.description == car.description.GetOr("")
    ensures f.fuelType == TextOr(car.fuelType, "Petrol") && f.transmission == TextOr(car.transmission, "Automatic")
    ensures f.fuelType != "" && f.transmission != ""
    ensures f.mileage.Some? <==> car.mileage.Some? && car.mileage.value != 0
    ensures f.year.Some? <==> car.year.Some? && car.year.value != 0
    ensures f.seats.Some? ==> f.seats == car.seats
    ensures f.pricePerDay == NumberOrEmpty(car.pricePerDay) && f.pricePerHour == NumberOrEmpty(car.pricePerHour)
    ensures f.year == NumberOrEmpty(car.year) && f.mileage == NumberOrEmpty(car.mileage)
    ensures f.seats == NumberOrEmpty(car.seats)
    ensures f.features == CarForm.JoinFeatures(car.features.GetOr([]))
    ensures f.isAvailable == car.isAvailable
  {
    CarForm.CarFormData(
      TextOr(car.title, ""),
      TextOr(car.brand, ""),
      TextOr(car.model, ""),
      NumberOrEmpty(car.year),
      NumberOrEmpty(car.pricePerDay),
      NumberOrEmpty(car.pricePerHour),
      TextOr(car.fuelType, "Petrol"),
      TextOr(car.transmission, "Automatic"),
      NumberOrEmpty(car.mileage),
      NumberOrEmpty(car.seats),
      TextOr(car.image, ""),
      TextOr(car.location, ""),
      TextOr(car.description, ""),
      if car.features.Some? then CarForm.JoinFeatures(car.features.value) else "",
      car.isAvailable)
  }

  datatype LoadError = LoadError(carNotFound: bool, message: string)

  const NotFoundMessage: string := "Car not found."
  const LoadFailedMessage: string := "Failed to load car details. Please try again."

  /** A failed load: a 404 marks the car as not found (no retry offered);
      any other failure, with or without a response, offers a retry and
      leaves the not-found flag as the previous load left it — only a
      successful load clears it. */
  function LoadFailure(status: Option<int>, wasNotFound: bool): (e: LoadError)
    ensures e.carNotFound <==> status == Some(404) || wasNotFound
    ensures e.message == (if status == Some(404) then NotFoundMessage else LoadFailedMessage)
    ensures e.message != ""
  {
    if status == Some(404) then LoadError(true, NotFoundMessage)
    else LoadError(wasNotFound, LoadFailedMessage)
  }

  /** A stored mileage of 0 empties the mileage input, so re-saving the car
      unchanged is refused with the mileage error although 0 is a valid
      mileage when typed in. */
  lemma ZeroMileageRefusedAfterLoad(car: CarRecord, currentYear: int)
    requires car.mileage == Some(0)
    ensures CarForm.Mileage in CarForm.Validate(LoadForm(car), currentYear)
    ensures CarForm.Mileage !in CarForm.Validate(LoadForm(car).(mileage := Some(0)), currentYear)
    ensures CarForm.Submit(LoadForm(car), currentYear).Rejected?
  {
    CarForm.ValidateNumberFields(LoadForm(car), currentYear);
    CarForm.ValidateNumberFields(LoadForm(car).(mileage := Some(0)), currentYear);
  }

  /** The conditions under which a stored car satisfies every form rule:
      each required text is present and not blank, the numbers are in
      range (mileage non-zero, since a zero is not shown), the image URL
      matches the pattern and the description is short enough. */
  predicate ResavableCar(car: CarRecord, currentYear: int) {
    && car.title.Some? && !Strings.IsBlank(car.title.value)
    && car.brand.Some? && !Strings.IsBlank(car.brand.value)
    && car.model.Some? && !Strings.IsBlank(car.model.value)
    && car.location.Some? && !Strings.IsBlank(car.location.value)
    && car.year.Some? && 1990 <= car.year.value <= currentYear + 1
    && car.pricePerDay.Some? && car.pricePerDay.value > 0
    && car.pricePerHour.Some? && car.pricePerHour.value > 0
    && car.mileage.Some? && car.mileage.value > 0
    && car.seats.Some? && 2 <= car.seats.value <= 8
    && car.image.Some? && CarForm.ImageUrlOk(car.image.value)
    && Strings.Utf16Length(car.description.GetOr("")) <= 500
  }

  /** Such a car loads into a form that validates. */
  lemma StoredCarValidates(car: CarRecord, currentYear: int)
    requires ResavableCar(car, currentYear)
    ensures CarForm.Valid(LoadForm(car), currentYear)
  {
    var f := LoadForm(car);
    CarForm.ValidateTextFields(f, currentYear);
    CarForm.ValidateNumberFields(f, currentYear);
    CarForm.ValidateOtherFields(f, currentYear);
    CarForm.ValidateImage(f, currentYear);
    BlankIsNoUrl(f.image);
    var errors := CarForm.Validate(f, currentYear);
    assert CarForm.Title !in errors && CarForm.Brand !in errors && CarForm.Model !in errors;
    assert CarForm.Location !in errors && CarForm.Year !in errors && CarForm.PricePerDay !in errors;
    assert CarForm.PricePerHour !in errors && CarForm.Mileage !in errors && CarForm.Seats !in errors;
    assert CarForm.Image !in errors && CarForm.Description !in errors;
    assert errors.Keys == {} by {
      forall g | g in errors.Keys ensures false {
        match g
        case Title =>
        case Brand =>
        case Model =>
        case Year =>
        case PricePerDay =>
        case PricePerHour =>
        case Mileage =>
        case Seats =>
        case Image =>
        case Location =>
        case Description =>
        case _ =>
      }
    }
  }

  /** Saving such a car unchanged sends back its own numbers and, when its
      entries are well formed, its own feature list. */
  lemma StoredCarResaves(car: CarRecord, currentYear: int)
    requires ResavableCar(car, currentYear)
    requires car.features.Some? && forall x :: x in car.features.value ==> CarForm.WellFormedFeature(x)
    ensures var out := CarForm.Submit(LoadForm(car), currentYear);
            && out.Saved?
            && out.payload.year == car.year.value && out.payload.mileage == car.mileage.value
            && out.payload.pricePerDay == car.pricePerDay.value
            && out.payload.pricePerHour == car.pricePerHour.value
            && out.payload.seats == car.seats.value
            && out.payload.features == car.features.value
  {
    StoredCarValidates(car, currentYear);
    CarForm.FeaturesRoundTrip(car.features.value);
  }

  /** No blank string passes the image-URL pattern, whose first character
      is an `h`. */
  lemma BlankIsNoUrl(s: string)
    ensures Strings.IsBlank(s) ==> !CarForm.ImageUrlOk(s)
  {
    if CarForm.StartsWithIgnoreCase(s, "http://") {
      SchemeStartsWithH(s, "http://");
    }
    if CarForm.StartsWithIgnoreCase(s, "https://") {
      SchemeStartsWithH(s, "https://");
    }
  }

  lemma SchemeStartsWithH(s: string, scheme: string)
    requires |scheme| > 0 && scheme[0] == 'h'
    requires CarForm.StartsWithIgnoreCase(s, scheme)
    ensures |s| > 0 && !Strings.IsWhitespace(s[0]) && !Strings.IsBlank(s)
  {
    assert s[..|scheme|][0] == s[0];
    assert Strings.ToLowerAscii(s[..|scheme|][0]) == Strings.ToLowerAscii(scheme[0]);
  }
}

=== FILE: filters.dfy ===
/** The filter records of the four list pages and the reducers over them.
    A filter record is a plain object, modelled as its entries in
    insertion order (what `Object.entries` walks); the address bar is the
    list of parameters `updateSearchParams` writes. */
module Filters {
  import opened Wrappers
  import Numbers

  /** What a filter entry can hold: select and input values are strings,
      `page` and `limit` are numbers, and a destructured part that is not
      there is `undefined`. */
  datatype Value = Str(text: string) | Num(number: int) | Null | Undefined

  type Entry = (string, Value)

  /** Query parameters in the order they were set. */
  type Url = seq<(string, string)>

  function KeysOf(o: seq<Entry>): seq<string> {
    if |o| == 0 then [] else [o[0].0] + KeysOf(o[1..])
  }

  /** An object never holds a key twice. */
  predicate UniqueKeys(o: seq<Entry>) {
    |o| == 0 || (o[0].0 !in KeysOf(o[1..]) && UniqueKeys(o[1..]))
  }

  /** `o[k]`, `None` when the key is absent. */
  function Lookup(o: seq<Entry>, k: string): (r: Option<Value>)
    ensures r.Some? <==> k in KeysOf(o)
    ensures r.Some? ==> (k, r.value) in o
  {
    if |o| == 0 then None
    else if o[0].0 == k then Some(o[0].1)
    else Lookup(o[1..], k)
  }

  /** `{ ...o, [k]: v }`: an existing key keeps its place and takes the new
      value, a new key is added at the end; no other key changes. */
  function Assign(o: seq<Entry>, k: string, v: Value): (r: seq<Entry>)
    requires UniqueKeys(o)
    ensures UniqueKeys(r)
    ensures Lookup(r, k) == Some(v)
    ensures forall k' :: k' != k ==> Lookup(r, k') == Lookup(o, k')
    ensures KeysOf(r) == if k in KeysOf(o) then KeysOf(o) else KeysOf(o) + [k]
  {
    if |o| == 0 then [(k, v)]
    else if o[0].0 == k then [(k, v)] + o[1..]
    else
      var rest := Assign(o[1..], k, v);
      AssignStep(o, k, v, rest);
      [o[0]] + rest
  }

  /** The recursive step of `Assign`: putting back the first entry, whose key
      is not the assigned one, in front of the assigned rest. */
  lemma AssignStep(o: seq<Entry>, k: string, v: Value, rest: seq<Entry>)
    requires |o| > 0 && UniqueKeys(o) && o[0].0 != k
    requires UniqueKeys(rest) && Lookup(rest, k) == Some(v)
    requires forall k' :: k' != k ==> Lookup(rest, k') == Lookup(o[1..], k')
    requires KeysOf(rest) == if k in KeysOf(o[1..]) then KeysOf(o[1..]) else KeysOf(o[1..]) + [k]
    ensures var r := [o[0]] + rest;
            && UniqueKeys(r) && Lookup(r, k) == Some(v)
            && (forall k' :: k' != k ==> Lookup(r, k') == Lookup(o, k'))
            && KeysOf(r) == if k in KeysOf(o) then KeysOf(o) else KeysOf(o) + [k]
  {
    var r := [o[0]] + rest;
    assert r[0] == o[0] && r[1..] == rest;
    assert KeysOf(r) == [o[0].0] + KeysOf(rest);
    assert o[0].0 !in KeysOf(rest);
    assert k in KeysOf(o) <==> k in KeysOf(o[1..]);
    forall k' | k' != k ensures Lookup(r, k') == Lookup(o, k') {
      if k' != o[0].0 {
        assert Lookup(r, k') == Lookup(rest, k');
      }
    }
  }

  /** Assigning an existing key replaces its entry where it stands and
      leaves every other entry as it was. */
  lemma {:induction false} AssignInPlace(o: seq<Entry>, k: string, v: Value)
    requires UniqueKeys(o) && k in KeysOf(o)
    ensures var r := Assign(o, k, v);
            |r| == |o| && forall i :: 0 <= i < |o| ==> r[i] == if o[i].0 == k then (k, v) else o[i]
  {
    var r := Assign(o, k, v);
    if o[0].0 == k {
      assert r == [(k, v)] + o[1..];
      forall i | 1 <= i < |o| ensures o[i].0 != k && r[i] == o[i] {
        KeyAt(o[1..], i - 1);
      }
    } else {
      var rest := Assign(o[1..], k, v);
      AssignInPlace(o[1..], k, v);
      assert r == [o[0]] + rest;
      forall i | 1 <= i < |o| ensures r[i] == if o[i].0 == k then (k, v) else o[i] {
        assert r[i] == rest[i - 1] && o[i] == o[1..][i - 1];
      }
    }
  }

  /** `handleFilterChange(key, value)` on every list page:
      `{ ...filters, [key]: value, page: 1 }`. The key takes the value,
      `page` becomes 1 afterwards (overriding the value when the key is
      `page` itself), and every other entry is kept. */
  function FilterChange(o: seq<Entry>, k: string, v: Value): (r: seq<Entry>)
    requires UniqueKeys(o)
    ensures UniqueKeys(r)
    ensures Lookup(r, "page") == Some(Num(1))
    ensures k != "page" ==> Lookup(r, k) == Some(v)
    ensures forall k' :: k' != k && k' != "page" ==> Lookup(r, k') == Lookup(o, k')
    ensures k in KeysOf(o) && "page" in KeysOf(o) ==> KeysOf(r) == KeysOf(o)
  {
    Assign(Assign(o, k, v), "page", Num(1))
  }

  /** `handlePageChange(n)` as the pages write it: `handleFilterChange('page', n)`. */
  function PageChangeAsWritten(o: seq<Entry>, n: int): (r: seq<Entry>)
    requires UniqueKeys(o)
    ensures UniqueKeys(r)
    ensures forall k' :: k' != "page" ==> Lookup(r, k') == Lookup(o, k')
  {
    FilterChange(o, "page", Num(n))
  }

  /** Whatever page is asked for, the as-written handler lands on page 1:
      the trailing `page: 1` overrides `[key]: value`. */
  lemma PageChangeAlwaysFirstPage(o: seq<Entry>, n: int)
    requires UniqueKeys(o)
    ensures Lookup(PageChangeAsWritten(o, n), "page") == Some(Num(1))
    ensures n != 1 ==> Lookup(PageChangeAsWritten(o, n), "page") != Some(Num(n))
  {
  }

  /** Concretely: on page 1 of `{ page: 1 }`, "next page" stays on page 1. */
  lemma NextPageStaysOnFirst()
    ensures var o := [("page", Num(1))];
            Lookup(PageChangeAsWritten(o, 2), "page") == Some(Num(1))
  {
    assert UniqueKeys([("page", Num(1))]);
  }

  /** The page change the pagination buttons evidently intend: `page`
      becomes the requested page and nothing else changes. */
  function PageChange(o: seq<Entry>, n: int): (r: seq<Entry>)
    requires UniqueKeys(o)
    ensures UniqueKeys(r)
    ensures Lookup(r, "page") == Some(Num(n))
    ensures forall k' :: k' != "page" ==> Lookup(r, k') == Lookup(o, k')
    ensures "page" in KeysOf(o) ==> KeysOf(r) == KeysOf(o)
  {
    Assign(o, "page", Num(n))
  }

  /** The two ways the pages decide which entries reach the query:
      the public car list keeps truthy values (`if (value)`), the admin
      pages and "my bookings" keep everything except `''` and `null`. */
  datatype Policy = Truthy | NotEmptyOrNull

  /** `NaN` never arises: `page` and `limit` are integers here. Whatever
      either test lets through has non-empty text, so the pages never write
      an empty query parameter. */
  predicate Keeps(p: Policy, v: Value)
    ensures Keeps(p, v) ==> Text(v) != ""
  {
    match p
    case Truthy =>
      (match v
       case Str(s) => s != ""
       case Num(n) => n != 0
       case _ => false)
    case NotEmptyOrNull => v != Str("") && v != Null
  }

  /** Every truthy value is neither `''` nor `null`, but `0` and `undefined`
      pass the admin pages' test and fail the public page's. */
  lemma TruthyIsStricter(v: Value)
    ensures Keeps(Truthy, v) ==> Keeps(NotEmptyOrNull, v)
    ensures Keeps(NotEmptyOrNull, Num(0)) && !Keeps(Truthy, Num(0))
    ensures Keeps(NotEmptyOrNull, Undefined) && !Keeps(Truthy, Undefined)
  {
  }

  /** The entries `Object.entries(filters).forEach(...)` appends to the
      query, in their order. */
  function Query(o: seq<Entry>, p: Policy): (q: seq<Entry>)
    ensures forall e :: e in q <==> e in o && Keeps(p, e.1)
    ensures |q| <= |o|
  {
    if |o| == 0 then []
    else (if Keeps(p, o[0].1) then [o[0]] else []) + Query(o[1..], p)
  }

  /** The query keeps the entries' relative order: it distributes over
      concatenation. */
  lemma {:induction false} QueryAppend(a: seq<Entry>, b: seq<Entry>, p: Policy)
    ensures Query(a + b, p) == Query(a, p) + Query(b, p)
  {
    if |a| == 0 {
      assert a + b == b;
    } else {
      assert (a + b)[0] == a[0];
      assert (a + b)[1..] == a[1..] + b;
      QueryAppend(a[1..], b, p);
    }
  }

  /** Filtering twice changes nothing, and the public page's query is the
      admin test's query filtered again. */
  lemma {:induction false} QueryIdempotent(o: seq<Entry>, p: Policy)
    ensures Query(Query(o, p), p) == Query(o, p)
    ensures Query(Query(o, NotEmptyOrNull), Truthy) == Query(o, Truthy)
  {
    if |o| > 0 {
      QueryIdempotent(o[1..], p);
      var head := if Keeps(p, o[0].1) then [o[0]] else [];
      QueryAppend(head, Query(o[1..], p), p);
      var head' := if Keeps(NotEmptyOrNull, o[0].1) then [o[0]] else [];
      QueryAppend(head', Query(o[1..], NotEmptyOrNull), Truthy);
      if Keeps(p, o[0].1) {
        assert Query(head, p) == head by {
          assert head[1..] == [];
        }
      }
      if Keeps(NotEmptyOrNull, o[0].1) {
        assert Query(head', Truthy) == (if Keeps(Truthy, o[0].1) then [o[0]] else []) by {
          assert head'[1..] == [];
        }
      }
    }
  }

  /** Looking a key up in the query: the entry is there exactly when the
      record holds the key and its value passes the test. */
  lemma {:induction false} QueryLookup(o: seq<Entry>, p: Policy, k: string)
    requires UniqueKeys(o)
    ensures Lookup(Query(o, p), k) ==
              if Lookup(o, k).Some? && Keeps(p, Lookup(o, k).value) then Lookup(o, k) else None
  {
    if |o| > 0 {
      QueryLookup(o[1..], p, k);
      var rest := Query(o[1..], p);
      if Keeps(p, o[0].1) {
        assert Query(o, p) == [o[0]] + rest;
        assert ([o[0]] + rest)[1..] == rest;
      } else {
        assert Query(o, p) == rest;
      }
    }
  }

  /** The text a value becomes in a query parameter. */
  function Text(v: Value): string {
    match v
    case Str(s) => s
    case Num(n) => Numbers.NumberText(n)
    case Null => "null"
    case Undefined => "undefined"
  }

  function Stringify(q: seq<Entry>): (url: Url)
    ensures |url| == |q|
    ensures forall i :: 0 <= i < |q| ==> url[i] == (q[i].0, Text(q[i].1))
  {
    if |q| == 0 then [] else [(q[0].0, Text(q[0].1))] + Stringify(q[1..])
  }

  /** `updateSearchParams(filters)`: the parameters the page writes: at most
      one per entry, each an entry of the record that passed the test, and
      none of them empty. */
  function WriteUrl(o: seq<Entry>, p: Policy): (url: Url)
    ensures |url| <= |o|
    ensures forall i :: 0 <= i < |url| ==>
              url[i].1 != "" && exists e :: e in o && Keeps(p, e.1) && url[i] == (e.0, Text(e.1))
  {
    var q := Query(o, p);
    var url := Stringify(q);
    assert forall i :: 0 <= i < |url| ==> q[i] in q;
    url
  }

  /** `searchParams.get(k)`: the first value under the key. */
  function Param(url: Url, k: string): (r: Option<string>)
    ensures r.Some? ==> (k, r.value) in url
    ensures r.None? <==> forall i :: 0 <= i < |url| ==> url[i].0 != k
  {
    if |url| == 0 then None
    else if url[0].0 == k then Some(url[0].1)
    else Param(url[1..], k)
  }

  lemma {:induction false} ParamOfStringify(q: seq<Entry>, k: string)
    ensures Param(Stringify(q), k) == if Lookup(q, k).Some? then Some(Text(Lookup(q, k).value)) else None
  {
    if |q| > 0 {
      ParamOfStringify(q[1..], k);
      assert Stringify(q)[1..] == Stringify(q[1..]);
    }
  }

  /** Reading a parameter back from what `updateSearchParams` wrote gives the
      value's text when the page's test let it through, and nothing
      otherwise. */
  lemma ReadWritten(o: seq<Entry>, p: Policy, k: string)
    requires UniqueKeys(o)
    ensures Param(WriteUrl(o, p), k) ==
              if Lookup(o, k).Some? && Keeps(p, Lookup(o, k).value) then Some(Text(Lookup(o, k).value)) else None
  {
    QueryLookup(o, p, k);
    ParamOfStringify(Query(o, p), k);
  }

  /** `searchParams.get(k) || fallback` */
  function TextParam(url: Url, k: string, fallback: string): (s: string)
    ensures Param(url, k).Some? && Param(url, k).value != "" ==> s == Param(url, k).value
    ensures !(Param(url, k).Some? && Param(url, k).value != "") ==> s == fallback
  {
    var g := Param(url, k);
    if g.Some? && g.value != "" then g.value else fallback
  }

  /** `parseInt(searchParams.get(k)) || fallback`: an absent parameter, one
      without digits and one that reads as 0 all give the fallback. */
  function IntParam(url: Url, k: string, fallback: int): (n: int)
    ensures fallback != 0 ==> n != 0
    ensures Param(url, k).Some? && Numbers.ParseInt(Param(url, k).value).Some?
              && Numbers.ParseInt(Param(url, k).value).value != 0
            ==> n == Numbers.ParseInt(Param(url, k).value).value
    ensures Param(url, k).None? ==> n == fallback
  {
    var g := Param(url, k);
    var r := if g.Some? then Numbers.ParseInt(g.value) else None;
    if r.Some? && r.value != 0 then r.value else fallback
  }

  /** The record holds the value at position `i` under its key. */
  lemma {:induction false} LookupAt(o: seq<Entry>, i: nat)
    requires UniqueKeys(o) && i < |o|
    ensures Lookup(o, o[i].0) == Some(o[i].1)
  {
    if i > 0 {
      LookupAt(o[1..], i - 1);
      assert o[1..][i - 1] == o[i];
      assert o[i].0 in KeysOf(o[1..]) by {
        KeyAt(o[1..], i - 1);
      }
    }
  }

  lemma {:induction false} KeyAt(o: seq<Entry>, i: nat)
    requires i < |o|
    ensures o[i].0 in KeysOf(o)
  {
    if i > 0 {
      KeyAt(o[1..], i - 1);
      assert o[1..][i - 1] == o[i];
    }
  }

  /** Records whose keys differ pairwise hold no key twice. */
  lemma {:induction false} DistinctKeysUnique(o: seq<Entry>)
    requires forall i, j :: 0 <= i < j < |o| ==> o[i].0 != o[j].0
    ensures UniqueKeys(o)
  {
    if |o| > 0 {
      DistinctKeysUnique(o[1..]);
      if o[0].0 in KeysOf(o[1..]) {
        var j := KeyIndex(o[1..], o[0].0);
      }
    }
  }

  lemma {:induction false} KeyIndex(o: seq<Entry>, k: string) returns (j: nat)
    requires k in KeysOf(o)
    ensures j < |o| && o[j].0 == k
  {
    if o[0].0 != k {
      j := KeyIndex(o[1..], k);
      assert o[1..][j] == o[j + 1];
      j := j + 1;
    } else {
      j := 0;
    }
  }

  /** How a page reads one filter from the address bar on load:
      `searchParams.get(k) || text` or `parseInt(searchParams.get(k)) || n`. */
  datatype Default = TextOr(text: string) | IntOr(number: int)

  type FilterSpec = (string, Default)

  /** A page's filter keys in order, pairwise distinct, each numeric
      fallback non-zero (a zero fallback would be falsy itself). */
  predicate WellFormedSchema(schema: seq<FilterSpec>) {
    && (forall i, j :: 0 <= i < j < |schema| ==> schema[i].0 != schema[j].0)
    && (forall i :: 0 <= i < |schema| && schema[i].1.IntOr? ==> schema[i].1.number != 0)
  }

  /** An entry a page can hold under that filter: a string (non-empty when
      the fallback is), or a non-zero number. */
  predicate EntryConforms(e: Entry, spec: FilterSpec) {
    && e.0 == spec.0
    && match spec.1
       case TextOr(d) => e.1.Str? && (d != "" ==> e.1.text != "")
       case IntOr(_) => e.1.Num? && e.1.number != 0
  }

  predicate Conforms(o: seq<Entry>, schema: seq<FilterSpec>) {
    |o| == |schema| && forall i :: 0 <= i < |o| ==> EntryConforms(o[i], schema[i])
  }

  function ReadEntry(url: Url, spec: FilterSpec): Value {
    match spec.1
    case TextOr(d) => Str(TextParam(url, spec.0, d))
    case IntOr(d) => Num(IntParam(url, spec.0, d))
  }

  /** The initial `useState({...})` of a list page: every filter read from
      the address bar with its fallback. Whatever the address bar holds,
      the result is a record of the page's shape. */
  function Read(url: Url, schema: seq<FilterSpec>): (o: seq<Entry>)
    requires WellFormedSchema(schema)
    ensures Conforms(o, schema)
    ensures UniqueKeys(o)
    ensures forall i :: 0 <= i < |o| && Param(url, schema[i].0).None? ==> o[i].1 == DefaultValue(schema[i].1)
  {
    if |schema| == 0 then []
    else
      var rest := Read(url, schema[1..]);
      var o := [(schema[0].0, ReadEntry(url, schema[0]))] + rest;
      assert o[1..] == rest;
      assert forall i :: 1 <= i < |o| ==> o[i] == rest[i - 1] && schema[i] == schema[1..][i - 1];
      assert schema[0].0 !in KeysOf(rest) by {
        if schema[0].0 in KeysOf(rest) {
          var j := KeyIndex(rest, schema[0].0);
        }
      }
      o
  }

  function DefaultValue(d: Default): Value {
    match d
    case TextOr(t) => Str(t)
    case IntOr(n) => Num(n)
  }

  /** With nothing in the address bar every filter takes its fallback. */
  function Defaults(schema: seq<FilterSpec>): (o: seq<Entry>)
    ensures |o| == |schema|
    ensures forall i :: 0 <= i < |schema| ==> o[i] == (schema[i].0, DefaultValue(schema[i].1))
  {
    if |schema| == 0 then []
    else
      var rest := Defaults(schema[1..]);
      assert forall i :: 1 <= i < |schema| ==> schema[1..][i - 1] == schema[i];
      [(schema[0].0, DefaultValue(schema[0].1))] + rest
  }

  lemma {:induction false} ReadEmptyUrl(schema: seq<FilterSpec>)
    requires WellFormedSchema(schema)
    ensures Read([], schema) == Defaults(schema)
  {
    if |schema| > 0 {
      ReadEmptyUrl(schema[1..]);
      assert ReadEntry([], schema[0]) == DefaultValue(schema[0].1);
      assert Read([], schema) == [(schema[0].0, ReadEntry([], schema[0]))] + Read([], schema[1..]);
      assert Defaults(schema) == [(schema[0].0, DefaultValue(schema[0].1))] + Defaults(schema[1..]);
    }
  }

  /** A numeral a `<select>` option carries: text that `parseInt` reads as
      a non-zero number and that is exactly how that number is written
      ("5", "10", "20"). */
  predicate IsNumeral(s: string) {
    var r := Numbers.ParseInt(s);
    r.Some? && r.value != 0 && Numbers.NumberText(r.value) == s
  }

  /** Every non-zero number written out is a numeral. */
  lemma NumeralOfNumber(n: int)
    requires n != 0
    ensures IsNumeral(Numbers.NumberText(n))
    ensures Numbers.ParseInt(Numbers.NumberText(n)) == Some(n)
  {
    Numbers.ParseNumberText(n);
  }

  /** An entry a page can come to hold: a shape a reload gives, or a number
      filter holding the string a page-size `<select>` stored with
      `handleFilterChange('limit', e.target.value)`. */
  predicate EntryReachable(e: Entry, spec: FilterSpec) {
    || EntryConforms(e, spec)
    || (e.0 == spec.0 && spec.1.IntOr? && e.1.Str? && IsNumeral(e.1.text))
  }

  predicate Reachable(o: seq<Entry>, schema: seq<FilterSpec>) {
    |o| == |schema| && forall i :: 0 <= i < |o| ==> EntryReachable(o[i], schema[i])
  }

  function SettleValue(e: Entry, spec: FilterSpec): Value {
    if spec.1.IntOr? && e.1.Str? && Numbers.ParseInt(e.1.text).Some?
    then Num(Numbers.ParseInt(e.1.text).value)
    else e.1
  }

  /** What a reload makes of a reachable record: a number filter's numeral
      comes back as the number it spells. The result has the page's shape,
      the same keys, the same text under each key, passes the same query
      test entry by entry, and a record of the page's shape is its own
      settled form. */
  function Settle(o: seq<Entry>, schema: seq<FilterSpec>): (r: seq<Entry>)
    requires Reachable(o, schema)
    ensures Conforms(r, schema)
    ensures forall i :: 0 <= i < |r| ==> r[i].0 == o[i].0 && Text(r[i].1) == Text(o[i].1)
    ensures forall i, p :: 0 <= i < |r| ==> (Keeps(p, r[i].1) <==> Keeps(p, o[i].1))
    ensures Conforms(o, schema) ==> r == o
  {
    var r := seq(|o|, i requires 0 <= i < |o| => (o[i].0, SettleValue(o[i], schema[i])));
    forall i | 0 <= i < |o|
      ensures EntryConforms(r[i], schema[i]) && Text(r[i].1) == Text(o[i].1)
      ensures forall p :: Keeps(p, r[i].1) <==> Keeps(p, o[i].1)
      ensures EntryConforms(o[i], schema[i]) ==> r[i] == o[i]
    {
      SettleEntry(o[i], schema[i]);
    }
    r
  }

  lemma SettleEntry(e: Entry, spec: FilterSpec)
    requires EntryReachable(e, spec)
    ensures EntryConforms((e.0, SettleValue(e, spec)), spec)
    ensures Text(SettleValue(e, spec)) == Text(e.1)
    ensures forall p :: Keeps(p, SettleValue(e, spec)) <==> Keeps(p, e.1)
    ensures EntryConforms(e, spec) ==> SettleValue(e, spec) == e.1
  {
    if EntryConforms(e, spec) {
      assert SettleValue(e, spec) == e.1 by {
        if spec.1.IntOr? {
          assert e.1.Num?;
        }
      }
    } else {
      var s := e.1.text;
      var n := Numbers.ParseInt(s).value;
      assert n != 0 && Numbers.NumberText(n) == s;
      assert SettleValue(e, spec) == Num(n);
      NumeralKept(s, n);
    }
  }

  /** A numeral and its number both pass either query test. */
  lemma NumeralKept(s: string, n: int)
    requires n != 0 && Numbers.NumberText(n) == s
    ensures forall p :: Keeps(p, Num(n)) && Keeps(p, Str(s))
  {
    assert |s| >= 1;
  }

  /** Records that agree key by key in their text and in what the query test
      keeps write the same address bar. */
  lemma {:induction false} SameTextSameUrl(a: seq<Entry>, b: seq<Entry>, p: Policy)
    requires |a| == |b|
    requires forall i :: 0 <= i < |a| ==>
               a[i].0 == b[i].0 && Text(a[i].1) == Text(b[i].1) && (Keeps(p, a[i].1) <==> Keeps(p, b[i].1))
    ensures WriteUrl(a, p) == WriteUrl(b, p)
  {
    if |a| > 0 {
      assert forall i :: 0 <= i < |a| - 1 ==> a[1..][i] == a[i + 1] && b[1..][i] == b[i + 1];
      SameTextSameUrl(a[1..], b[1..], p);
      var qa, qb := Query(a, p), Query(b, p);
      if Keeps(p, a[0].1) {
        assert qa == [a[0]] + Query(a[1..], p) && qb == [b[0]] + Query(b[1..], p);
        assert qa[1..] == Query(a[1..], p) && qb[1..] == Query(b[1..], p);
        assert Stringify(qa) == [(a[0].0, Text(a[0].1))] + Stringify(Query(a[1..], p));
        assert Stringify(qb) == [(b[0].0, Text(b[0].1))] + Stringify(Query(b[1..], p));
      } else {
        assert qa == Query(a[1..], p) && qb == Query(b[1..], p);
      }
    }
  }

  /** The pages keep their filters in the address bar: reading back what
      `updateSearchParams` wrote gives the settled record, which writes the
      same address bar again; a record of the page's shape comes back
      unchanged, under either query test. Empty strings are dropped from
      the address bar and come back as their empty fallback. */
  lemma ReloadSettles(o: seq<Entry>, p: Policy, schema: seq<FilterSpec>)
    requires WellFormedSchema(schema) && Reachable(o, schema)
    ensures Read(WriteUrl(o, p), schema) == Settle(o, schema)
    ensures WriteUrl(Read(WriteUrl(o, p), schema), p) == WriteUrl(o, p)
    ensures Conforms(o, schema) ==> Read(WriteUrl(o, p), schema) == o
  {
    ReachableUnique(o, schema);
    var url, r := WriteUrl(o, p), Settle(o, schema);
    forall j | 0 <= j < |r| ensures r[j] == (schema[j].0, ReadEntry(url, schema[j])) {
      ReadEntryBack(o, p, schema, j);
    }
    ReadFrom(url, schema, r, 0);
    assert schema[0..] == schema && r[0..] == r;
    SameTextSameUrl(Settle(o, schema), o, p);
  }

  lemma ReadWriteRoundTrip(o: seq<Entry>, p: Policy, schema: seq<FilterSpec>)
    requires WellFormedSchema(schema) && Conforms(o, schema)
    ensures Read(WriteUrl(o, p), schema) == o
  {
    assert Reachable(o, schema);
    ReloadSettles(o, p, schema);
  }

  /** A reachable record has the schema's keys, which are distinct. */
  lemma ReachableUnique(o: seq<Entry>, schema: seq<FilterSpec>)
    requires WellFormedSchema(schema) && Reachable(o, schema)
    ensures UniqueKeys(o)
  {
    assert forall i :: 0 <= i < |o| ==> o[i].0 == schema[i].0 by {
      forall i | 0 <= i < |o| ensures o[i].0 == schema[i].0 {
        assert EntryReachable(o[i], schema[i]);
      }
    }
    DistinctKeysUnique(o);
  }

  /** `Read` fills the record entry by entry: a record holding, at each
      position, the schema's key with the filter read from `url` is what
      `Read` returns (from position `i` on). */
  lemma {:induction false} ReadFrom(url: Url, schema: seq<FilterSpec>, r: seq<Entry>, i: nat)
    requires WellFormedSchema(schema) && |r| == |schema| && i <= |schema|
    requires forall j :: 0 <= j < |r| ==> r[j] == (schema[j].0, ReadEntry(url, schema[j]))
    ensures WellFormedSchema(schema[i..])
    ensures Read(url, schema[i..]) == r[i..]
    decreases |schema| - i
  {
    SuffixWellFormed(schema, i);
    if i < |schema| {
      ReadFrom(url, schema, r, i + 1);
      SuffixWellFormed(schema, i + 1);
      assert schema[i..][1..] == schema[i + 1..];
      assert Read(url, schema[i..]) == [(schema[i].0, ReadEntry(url, schema[i]))] + Read(url, schema[i + 1..]);
      assert r[i..] == [r[i]] + r[i + 1..];
    } else {
      assert schema[i..] == [];
    }
  }

  lemma SuffixWellFormed(schema: seq<FilterSpec>, i: nat)
    requires WellFormedSchema(schema) && i <= |schema|
    ensures WellFormedSchema(schema[i..])
  {
    forall a, b | 0 <= a < b < |schema[i..]| ensures schema[i..][a].0 != schema[i..][b].0 {
      assert schema[i..][a] == schema[a + i] && schema[i..][b] == schema[b + i];
    }
  }

  /** One filter read back from the written address bar. */
  lemma ReadEntryBack(o: seq<Entry>, p: Policy, schema: seq<FilterSpec>, i: nat)
    requires WellFormedSchema(schema) && Reachable(o, schema) && i < |schema|
    requires UniqueKeys(o)
    ensures Settle(o, schema)[i] == (schema[i].0, ReadEntry(WriteUrl(o, p), schema[i]))
  {
    var url, e, spec := WriteUrl(o, p), o[i], schema[i];
    assert EntryReachable(e, spec);
    assert Param(url, e.0) == if Keeps(p, e.1) then Some(Text(e.1)) else None by {
      LookupAt(o, i);
      ReadWritten(o, p, e.0);
    }
    match spec.1
    case TextOr(d) =>
      assert e.1.Str? && (d != "" ==> e.1.text != "");
      ReadTextBack(url, e.0, d, e.1.text, p);
    case IntOr(d) =>
      ReadNumberBack(url, e.0, d, e.1, p);
  }

  lemma ReadTextBack(url: Url, k: string, d: string, t: string, p: Policy)
    requires d != "" ==> t != ""
    requires Param(url, k) == if Keeps(p, Str(t)) then Some(t) else None
    ensures TextParam(url, k, d) == t
  {
  }

  lemma ReadNumberBack(url: Url, k: string, d: int, v: Value, p: Policy)
    requires (v.Num? && v.number != 0) || (v.Str? && IsNumeral(v.text))
    requires Param(url, k) == if Keeps(p, v) then Some(Text(v)) else None
    ensures IntParam(url, k, d) == if v.Num? then v.number else Numbers.ParseInt(v.text).value
  {
    if v.Num? {
      NumeralOfNumber(v.number);
    } else {
      NumeralKept(v.text, Numbers.ParseInt(v.text).value);
    }
  }

  /** Position of a key in a record of a well-formed shape. */
  predicate HasTextFilter(schema: seq<FilterSpec>, k: string) {
    exists i :: 0 <= i < |schema| && schema[i].0 == k && schema[i].1.TextOr?
  }

  predicate HasPage(schema: seq<FilterSpec>) {
    exists i :: 0 <= i < |schema| && schema[i].0 == "page" && schema[i].1.IntOr?
  }

  /** Setting a key of the record's shape to a value that key accepts
      keeps the shape. */
  lemma AssignConforms(o: seq<Entry>, schema: seq<FilterSpec>, idx: nat, v: Value)
    requires WellFormedSchema(schema) && Conforms(o, schema) && UniqueKeys(o)
    requires idx < |o| && EntryConforms((o[idx].0, v), schema[idx])
    ensures Conforms(Assign(o, o[idx].0, v), schema)
  {
    var k := o[idx].0;
    KeyAt(o, idx);
    var r := Assign(o, k, v);
    AssignInPlace(o, k, v);
    forall i | 0 <= i < |r| ensures EntryConforms(r[i], schema[i]) {
      assert EntryConforms(o[i], schema[i]);
      if i != idx {
        assert schema[i].0 != schema[idx].0;
      }
    }
  }

  /** A filter change keeps a page's record in shape: setting one of its
      text filters to a string the filter accepts, with `page` reset to 1,
      gives a record of the same keys in the same order. With the address
      bar round trip this means the page reloads to the filters it shows. */
  lemma FilterChangeConforms(o: seq<Entry>, schema: seq<FilterSpec>, k: string, s: string)
    requires WellFormedSchema(schema) && Conforms(o, schema)
    requires HasTextFilter(schema, k) && HasPage(schema)
    requires forall i :: 0 <= i < |schema| && schema[i].0 == k ==> (schema[i].1.text != "" ==> s != "")
    ensures UniqueKeys(o)
    ensures Conforms(FilterChange(o, k, Str(s)), schema)
  {
    DistinctKeysUnique(o);
    var ik :| 0 <= ik < |schema| && schema[ik].0 == k && schema[ik].1.TextOr?;
    var ip :| 0 <= ip < |schema| && schema[ip].0 == "page" && schema[ip].1.IntOr?;
    assert o[ik].0 == k && o[ip].0 == "page";
    AssignConforms(o, schema, ik, Str(s));
    var o1 := Assign(o, k, Str(s));
    assert o1[ip].0 == "page";
    AssignConforms(o1, schema, ip, Num(1));
  }

  /** Setting a key of the record's shape to a value that key can come to
      hold keeps the record reachable. */
  lemma AssignReachable(o: seq<Entry>, schema: seq<FilterSpec>, idx: nat, v: Value)
    requires WellFormedSchema(schema) && Reachable(o, schema) && UniqueKeys(o)
    requires idx < |o| && EntryReachable((o[idx].0, v), schema[idx])
    ensures Reachable(Assign(o, o[idx].0, v), schema)
  {
    var k := o[idx].0;
    KeyAt(o, idx);
    var r := Assign(o, k, v);
    AssignInPlace(o, k, v);
    forall i | 0 <= i < |r| ensures EntryReachable(r[i], schema[i]) {
      assert EntryReachable(o[i], schema[i]);
      if i != idx {
        assert schema[i].0 != schema[idx].0;
      }
    }
  }

  /** Every filter change a page makes keeps its record reachable: setting
      a text filter to a string it accepts, or a number filter to the
      numeral a `<select>` option carries, with `page` reset to 1. With the
      address bar round trip this means the page reloads to the settled
      form of the filters it shows. */
  lemma FilterChangeReachable(o: seq<Entry>, schema: seq<FilterSpec>, ik: nat, v: Value)
    requires WellFormedSchema(schema) && Reachable(o, schema) && HasPage(schema)
    requires ik < |schema| && EntryReachable((schema[ik].0, v), schema[ik])
    ensures UniqueKeys(o)
    ensures Reachable(FilterChange(o, schema[ik].0, v), schema)
  {
    ReachableUnique(o, schema);
    var k := schema[ik].0;
    var ip :| 0 <= ip < |schema| && schema[ip].0 == "page" && schema[ip].1.IntOr?;
    assert EntryReachable(o[ik], schema[ik]) && EntryReachable(o[ip], schema[ip]);
    AssignReachable(o, schema, ik, v);
    var o1 := Assign(o, k, v);
    assert EntryReachable(o1[ip], schema[ip]);
    AssignReachable(o1, schema, ip, Num(1));
  }

  /** A number filter other than `page` set to the string `String(n)` a
      `<select>` option carries: the record stays reachable but loses the
      shape a reload gives, holds the string under the key, and settles to
      the number n. */
  lemma NumberFilterChange(o: seq<Entry>, schema: seq<FilterSpec>, ik: nat, n: int)
    requires WellFormedSchema(schema) && Reachable(o, schema) && HasPage(schema)
    requires ik < |schema| && schema[ik].1.IntOr? && schema[ik].0 != "page" && n != 0
    ensures UniqueKeys(o)
    ensures var k, d := schema[ik].0, Numbers.NumberText(n);
            var r := FilterChange(o, k, Str(d));
            && Reachable(r, schema) && !Conforms(r, schema)
            && Lookup(r, k) == Some(Str(d))
            && Lookup(Settle(r, schema), k) == Some(Num(n))
  {
    var k, d := schema[ik].0, Numbers.NumberText(n);
    NumeralOfNumber(n);
    assert EntryReachable((k, Str(d)), schema[ik]);
    FilterChangeReachable(o, schema, ik, Str(d));
    var r := FilterChange(o, k, Str(d));
    assert Lookup(r, k) == Some(Str(d));
    ReachableUnique(r, schema);
    assert r[ik] == (k, Str(d)) by {
      assert r[ik].0 == k by {
        assert EntryReachable(r[ik], schema[ik]);
      }
      LookupAt(r, ik);
    }
    assert !Conforms(r, schema) by {
      assert !r[ik].1.Num?;
    }
    var back := Settle(r, schema);
    assert Lookup(back, k) == Some(Num(n)) by {
      ReachableUnique(back, schema);
      assert back[ik] == (k, SettleValue(r[ik], schema[ik]));
      LookupAt(back, ik);
    }
  }
}

=== FILE: my_bookings_page.dfy ===
/** The signed-in user's booking list: a status filter with page and page
    size in the address bar, and the "Clear Filters" button. Its status
    pill and cancel button use the predicates of the booking detail page. */
module MyBookingsPage {
  import opened Wrappers
  import opened Filters
  import Numbers
  import BookingDetails

  const Schema: seq<FilterSpec> := [("status", TextOr("")), ("page", IntOr(1)), ("limit", IntOr(10))]

  lemma SchemaWellFormed()
    ensures WellFormedSchema(Schema)
  {
  }

  /** The filters the page starts from. */
  function InitialFilters(url: Url): (o: seq<Entry>)
    ensures Conforms(o, Schema) && UniqueKeys(o)
    ensures Param(url, "status").None? ==> Lookup(o, "status") == Some(Str(""))
  {
    SchemaWellFormed();
    var o := Read(url, Schema);
    LookupAt(o, 0);
    o
  }

  /** "Clear Filters" is `handleFilterChange('status', '')`: the status
      filter is emptied and the page reset to 1, but the page size stays
      whatever it was — a number, or the string the select stored — unlike
      the admin pages' clear. The result reloads from the address bar to
      its settled form, and to itself when the page size was a number. */
  function ClearStatus(o: seq<Entry>): (r: seq<Entry>)
    requires Reachable(o, Schema)
    ensures Reachable(r, Schema)
    ensures Lookup(r, "status") == Some(Str("")) && Lookup(r, "page") == Some(Num(1))
    ensures Lookup(r, "limit") == Lookup(o, "limit")
    ensures InitialFilters(WriteUrl(r, NotEmptyOrNull)) == Settle(r, Schema)
    ensures Conforms(o, Schema) ==> Conforms(r, Schema) && InitialFilters(WriteUrl(r, NotEmptyOrNull)) == r
  {
    SchemaWellFormed();
    assert HasPage(Schema) by { assert Schema[1].0 == "page"; }
    FilterChangeReachable(o, Schema, 0, Str(""));
    var r := FilterChange(o, "status", Str(""));
    assert Lookup(r, "limit") == Lookup(o, "limit") by {
      KeysDiffer();
    }
    assert Conforms(o, Schema) ==> Conforms(r, Schema) by {
      if Conforms(o, Schema) {
        assert HasTextFilter(Schema, "status") by { assert Schema[0].0 == "status"; }
        FilterChangeConforms(o, Schema, "status", "");
      }
    }
    AddressBarRoundTrip(r);
    r
  }

  lemma KeysDiffer()
    ensures "limit" != "status" && "limit" != "page"
  {
  }

  /** Reloading from the parameters `updateSearchParams` wrote (everything
      but `''` and `null`) gives the filters back, a page size the select
      stored as a string coming back as its number; the reloaded filters
      write the same address bar again. */
  lemma AddressBarRoundTrip(o: seq<Entry>)
    requires Reachable(o, Schema)
    ensures InitialFilters(WriteUrl(o, NotEmptyOrNull)) == Settle(o, Schema)
    ensures WriteUrl(InitialFilters(WriteUrl(o, NotEmptyOrNull)), NotEmptyOrNull) == WriteUrl(o, NotEmptyOrNull)
    ensures Conforms(o, Schema) ==> InitialFilters(WriteUrl(o, NotEmptyOrNull)) == o
  {
    SchemaWellFormed();
    ReloadSettles(o, NotEmptyOrNull, Schema);
  }

  /** Choosing n bookings per page (the options are 5, 10 and 20) stores
      the option's value, the string `String(n)`, under `limit`. It returns
      to page 1 and keeps the status; a reload reads the page size back as
      the number n, and the reloaded filters write the same address bar. */
  lemma PageSizeReloads(o: seq<Entry>, n: int)
    requires Reachable(o, Schema) && n > 0
    ensures UniqueKeys(o)
    ensures var d := Numbers.NumberText(n);
            var r := FilterChange(o, "limit", Str(d));
            && Reachable(r, Schema) && !Conforms(r, Schema)
            && Lookup(r, "limit") == Some(Str(d)) && Lookup(r, "page") == Some(Num(1))
            && Lookup(r, "status") == Lookup(o, "status")
            && Lookup(InitialFilters(WriteUrl(r, NotEmptyOrNull)), "limit") == Some(Num(n))
            && WriteUrl(InitialFilters(WriteUrl(r, NotEmptyOrNull)), NotEmptyOrNull) == WriteUrl(r, NotEmptyOrNull)
  {
    SchemaWellFormed();
    assert HasPage(Schema) by { assert Schema[1].0 == "page"; }
    NumberFilterChange(o, Schema, 2, n);
    var r := FilterChange(o, "limit", Str(Numbers.NumberText(n)));
    assert Lookup(r, "page") == Some(Num(1));
    KeysDiffer();
    AddressBarRoundTrip(r);
  }

  /** Clearing keeps a custom page size: from `{ status: 'pending', page: 3,
      limit: 25 }` it gives status empty, page 1 and still 25 rows. */
  lemma ClearKeepsPageSize()
    ensures var o := [("status", Str("pending")), ("page", Num(3)), ("limit", Num(25))];
            Conforms(o, Schema) && Lookup(ClearStatus(o), "limit") == Some(Num(25))
  {
    var o := [("status", Str("pending")), ("page", Num(3)), ("limit", Num(25))];
    assert Conforms(o, Schema);
    DistinctKeysUnique(o);
    LookupAt(o, 2);
  }

  /** The list's own cancel-button condition, written out again in the
      list: it agrees with the detail page's `canCancel` everywhere. */
  function ShowsCancelButton(status: string, startDate: int, now: int): (b: bool)
    ensures b == BookingDetails.CanCancel(status, startDate, now)
  {
    status == "confirmed" && startDate > now
  }
}

=== FILE: numbers.dfy ===
/** How the list pages move numbers through the address bar: a number
    written into a query parameter (`String(n)`), and `parseInt` reading
    one back. */
module Numbers {
  import opened Wrappers
  import Strings

  /** The decimal digits of `n`, most significant first, without leading
      zeros. */
  function DecimalString(n: nat): (s: string)
    ensures |s| >= 1
    ensures forall k :: 0 <= k < |s| ==> Strings.IsDigit(s[k])
    ensures Strings.DigitsValue(s) == n
  {
    if n < 10 then
      assert Strings.DigitOf(Strings.DigitChar(n)) == n;
      assert [Strings.DigitChar(n)][..0] == [];
      [Strings.DigitChar(n)]
    else
      var init := DecimalString(n / 10);
      var last := Strings.DigitChar(n % 10);
      assert (init + [last])[..|init|] == init;
      assert Strings.DigitOf(last) == n % 10;
      init + [last]
  }

  /** `String(n)` for an integer. */
  function NumberText(n: int): (s: string)
    ensures |s| >= 1
    ensures n >= 0 ==> s == DecimalString(n)
    ensures n < 0 ==> s == "-" + DecimalString(-n)
  {
    if n < 0 then "-" + DecimalString(-n) else DecimalString(n)
  }

  /** The longest run of decimal digits at the front of `s`. */
  function LeadingDigits(s: string): (d: string)
    ensures |d| <= |s| && d == s[..|d|]
    ensures forall k :: 0 <= k < |d| ==> Strings.IsDigit(d[k])
    ensures |d| == |s| || !Strings.IsDigit(s[|d|])
    ensures (forall k :: 0 <= k < |s| ==> Strings.IsDigit(s[k])) ==> d == s
  {
    if |s| == 0 || !Strings.IsDigit(s[0]) then ""
    else [s[0]] + LeadingDigits(s[1..])
  }

  /** `parseInt(s)` in base ten: leading whitespace is skipped, one sign is
      allowed, then the leading digits are read and anything after them is
      ignored; no digits at all reads as `NaN` (`None`). */
  function ParseInt(s: string): (r: Option<int>)
    ensures r.Some? ==> exists k :: 0 <= k < |s| && Strings.IsDigit(s[k])
  {
    var t := Strings.TrimStart(s);
    if |t| > 0 && (t[0] == '-' || t[0] == '+') then
      var d := LeadingDigits(t[1..]);
      if d == "" then None
      else
        assert t[1..][0] == s[|s| - |t| + 1];
        var magnitude: int := Strings.DigitsValue(d);
        Some(if t[0] == '-' then -magnitude else magnitude)
    else
      var d := LeadingDigits(t);
      if d == "" then None
      else
        assert t[0] == s[|s| - |t|];
        Some(Strings.DigitsValue(d))
  }

  /** A string that does not start with whitespace is left alone by
      `trimStart`. */
  lemma TrimStartKeeps(s: string)
    requires |s| > 0 && !Strings.IsWhitespace(s[0])
    ensures Strings.TrimStart(s) == s
  {
  }

  /** Reading back a written number gives the number: `parseInt(String(n))
      === n` for every integer. */
  lemma ParseNumberText(n: int)
    ensures ParseInt(NumberText(n)) == Some(n)
  {
    var s := NumberText(n);
    if n >= 0 {
      var ds := DecimalString(n);
      assert Strings.IsDigit(ds[0]);
      TrimStartKeeps(s);
    } else {
      var ds := DecimalString(-n);
      assert s[0] == '-';
      TrimStartKeeps(s);
      assert s[1..] == ds;
    }
  }

  /** Trailing text after the digits is ignored, as `parseInt("12abc")` is
      12. */
  lemma ParseIntIgnoresTail()
    ensures ParseInt("12abc") == Some(12)
  {
    TrimStartKeeps("12abc");
    assert LeadingDigits("12abc") == "12" by {
      assert "12abc"[1..] == "2abc";
      assert "2abc"[1..] == "abc";
    }
    assert Strings.DigitsValue("12") == 12 by {
      assert "12"[..1] == "1";
      assert "1"[..0] == "";
    }
  }
}

=== FILE: strings.dfy ===
/** The JavaScript string primitives the modelled pages rely on: `trim`,
    `split` on one separator character, `join`, `charAt(0).toUpperCase()`
    and `length` (which counts UTF-16 code units). Strings are sequences
    of Unicode scalar values. */
module Strings {

  /** ECMAScript WhiteSpace and LineTerminator code points: what `trim`
      removes and what `\s` in a regular expression matches. */
  predicate IsWhitespace(c: char) {
    var n := c as int;
    || n == 0x09 || n == 0x0A || n == 0x0B || n == 0x0C || n == 0x0D
    || n == 0x20 || n == 0xA0 || n == 0x1680
    || (0x2000 <= n <= 0x200A)
    || n == 0x2028 || n == 0x2029 || n == 0x202F || n == 0x205F
    || n == 0x3000 || n == 0xFEFF
  }

  /** Every character of `s` is whitespace. */
  predicate AllWhitespace(s: string) {
    |s| == 0 || (IsWhitespace(s[0]) && AllWhitespace(s[1..]))
  }

  lemma {:induction false} AllWhitespaceConcat(a: string, b: string)
    ensures AllWhitespace(a + b) <==> AllWhitespace(a) && AllWhitespace(b)
  {
    if |a| > 0 {
      assert (a + b)[1..] == a[1..] + b;
      AllWhitespaceConcat(a[1..], b);
    } else {
      assert a + b == b;
    }
  }

  /** No character of `s` is whitespace. */
  predicate NoWhitespace(s: string) {
    |s| == 0 || (!IsWhitespace(s[0]) && NoWhitespace(s[1..]))
  }

  /** The lower-case form of an ASCII letter; every other character is
      returned unchanged. */
  function ToLowerAscii(c: char): (l: char)
    ensures 'A' <= c <= 'Z' ==> 'a' <= l <= 'z' && l as int == c as int + 32
    ensures !('A' <= c <= 'Z') ==> l == c
  {
    if 'A' <= c <= 'Z' then (c as int + 32) as char else c
  }

  /** Equality up to the case of ASCII letters, as a regular expression with
      the `i` flag (and without `u`) compares characters. */
  predicate EqualsIgnoreCase(a: string, b: string) {
    |a| == |b| && forall k :: 0 <= k < |a| ==> ToLowerAscii(a[k]) == ToLowerAscii(b[k])
  }

  /** `s.trimStart()`: the suffix of `s` that starts at its first
      non-whitespace character. */
  function TrimStart(s: string): (r: string)
    ensures |r| <= |s| && r == s[|s| - |r|..]
    ensures |r| == 0 || !IsWhitespace(r[0])
    ensures AllWhitespace(s[..|s| - |r|])
  {
    if |s| > 0 && IsWhitespace(s[0]) then
      var r := TrimStart(s[1..]);
      assert s[..|s| - |r|][1..] == s[1..][..|s| - 1 - |r|];
      r
    else s
  }

  /** `s.trimEnd()`: the prefix of `s` that ends at its last
      non-whitespace character. */
  function TrimEnd(s: string): (r: string)
    ensures |r| <= |s| && r == s[..|r|]
    ensures |r| == 0 || !IsWhitespace(r[|r| - 1])
    ensures AllWhitespace(s[|r|..])
  {
    if |s| > 0 && IsWhitespace(s[|s| - 1]) then
      var r := TrimEnd(s[..|s| - 1]);
      assert s[|r|..] == s[..|s| - 1][|r|..] + [s[|s| - 1]];
      AllWhitespaceConcat(s[..|s| - 1][|r|..], [s[|s| - 1]]);
      r
    else s
  }

  /** A string with no whitespace at either end. */
  predicate Trimmed(s: string) {
    |s| == 0 || (!IsWhitespace(s[0]) && !IsWhitespace(s[|s| - 1]))
  }

  /** `s.trim()` */
  function Trim(s: string): (r: string)
    ensures Trimmed(r)
  {
    TrimEnd(TrimStart(s))
  }

  /** JavaScript's `!s.trim()`: the string holds nothing but whitespace. */
  predicate IsBlank(s: string) {
    AllWhitespace(s)
  }

  /** `trim` empties exactly the blank strings. */
  lemma BlankIffTrimEmpty(s: string)
    ensures IsBlank(s) <==> Trim(s) == ""
  {
    var t := TrimStart(s);
    assert s == s[..|s| - |t|] + t;
    AllWhitespaceConcat(s[..|s| - |t|], t);
    if Trim(s) == "" {
      assert t[0..] == t;
    }
  }

  /** `trim` returns a contiguous piece of its argument, so it adds no
      character the argument lacks. */
  lemma TrimAddsNothing(s: string, c: char)
    requires c !in s
    ensures c !in Trim(s)
  {
    var t := TrimStart(s);
    var r := TrimEnd(t);
    assert t == s[|s| - |t|..];
    assert c !in t;
    assert r == t[..|r|];
  }

  lemma TrimOfTrimmed(s: string)
    requires Trimmed(s)
    ensures Trim(s) == s
  {
  }

  /** Leading whitespace in front of a non-empty trimmed string is exactly
      what `trim` removes. */
  lemma {:induction false} TrimDropsLeadingWhitespace(p: string, x: string)
    requires AllWhitespace(p)
    requires x != "" && Trimmed(x)
    ensures Trim(p + x) == x
  {
    if |p| == 0 {
      assert p + x == x;
    } else {
      assert (p + x)[1..] == p[1..] + x;
      TrimDropsLeadingWhitespace(p[1..], x);
      assert TrimStart(p + x) == TrimStart(p[1..] + x);
    }
  }

  /** `s.trim()` is what is left of `s` once the whitespace at both ends is
      cut off: a contiguous piece of `s` with only whitespace before and
      after it. */
  lemma TrimSlice(s: string)
    ensures exists i, j :: 0 <= i <= j <= |s| && Trim(s) == s[i..j] && AllWhitespace(s[..i]) && AllWhitespace(s[j..])
  {
    var t := TrimStart(s);
    var r := TrimEnd(t);
    var i := |s| - |t|;
    var j := i + |r|;
    assert s[i..j] == t[..|r|];
    assert s[j..] == t[|r|..];
    assert Trim(s) == s[i..j];
  }

  /** `s.split(sep)` for a one-character separator: the maximal runs of
      non-separator characters, including the empty runs around adjacent
      or outer separators; `"".split(sep)` is `[""]`. */
  function Split(s: string, sep: char): (parts: seq<string>)
    ensures |parts| >= 1
    ensures forall p :: p in parts ==> sep !in p
  {
    if |s| == 0 then [""]
    else
      var rest := Split(s[1..], sep);
      if s[0] == sep then [""] + rest
      else
        assert rest[0] in rest;
        assert forall p :: p in rest[1..] ==> p in rest;
        [[s[0]] + rest[0]] + rest[1..]
  }

  /** `xs.join(sep)` */
  function Join(xs: seq<string>, sep: string): (r: string)
    ensures |xs| > 0 ==> xs[0] <= r
  {
    if |xs| == 0 then ""
    else if |xs| == 1 then xs[0]
    else xs[0] + sep + Join(xs[1..], sep)
  }

  /** Splitting a string whose first separator sits right after `a`. */
  lemma {:induction false} SplitAfterPrefix(a: string, b: string, sep: char)
    requires sep !in a
    ensures Split(a + [sep] + b, sep) == [a] + Split(b, sep)
  {
    if |a| == 0 {
      assert a + [sep] + b == [sep] + b;
      assert ([sep] + b)[1..] == b;
    } else {
      assert (a + [sep] + b)[1..] == a[1..] + [sep] + b;
      SplitAfterPrefix(a[1..], b, sep);
      assert [a[0]] + a[1..] == a;
    }
  }

  /** A string without the separator splits into itself. */
  lemma {:induction false} SplitWithoutSeparator(a: string, sep: char)
    requires sep !in a
    ensures Split(a, sep) == [a]
  {
    if |a| > 0 {
      SplitWithoutSeparator(a[1..], sep);
      assert [a[0]] + a[1..] == a;
    }
  }

  /** `split` and `join` on the same separator are inverse:
      `s.split(sep).join(sep) === s` for every string. */
  lemma {:induction false} JoinSplit(s: string, sep: char)
    ensures Join(Split(s, sep), [sep]) == s
  {
    if |s| > 0 {
      var rest := Split(s[1..], sep);
      JoinSplit(s[1..], sep);
      if s[0] == sep {
        assert Join([""] + rest, [sep]) == "" + [sep] + Join(rest, [sep]);
        assert "" + [sep] + s[1..] == s;
      } else {
        var parts := [[s[0]] + rest[0]] + rest[1..];
        assert parts[1..] == rest[1..];
        if |rest| == 1 {
          assert Join(parts, [sep]) == [s[0]] + rest[0];
        } else {
          assert Join(parts, [sep]) == [s[0]] + rest[0] + [sep] + Join(rest[1..], [sep]);
          assert Join(rest, [sep]) == rest[0] + [sep] + Join(rest[1..], [sep]);
        }
        assert [s[0]] + s[1..] == s;
      }
    }
  }

  /** Joining strings that do not hold the separator and splitting the result
      on it gives back the list: `xs.join(sep).split(sep)` is `xs`. */
  lemma {:induction false} SplitJoin(xs: seq<string>, sep: char)
    requires |xs| >= 1 && forall x :: x in xs ==> sep !in x
    ensures Split(Join(xs, [sep]), sep) == xs
  {
    if |xs| == 1 {
      SplitWithoutSeparator(xs[0], sep);
      assert xs == [xs[0]];
    } else {
      assert xs[0] in xs;
      assert forall x :: x in xs[1..] ==> x in xs;
      SplitJoin(xs[1..], sep);
      assert Join(xs, [sep]) == xs[0] + [sep] + Join(xs[1..], [sep]);
      SplitAfterPrefix(xs[0], Join(xs[1..], [sep]), sep);
      assert xs == [xs[0]] + xs[1..];
    }
  }

  /** Decimal digits: `c` is one of '0' … '9', its value, and the value of a
      run of digits read most significant first. */
  predicate IsDigit(c: char) {
    '0' <= c <= '9'
  }

  function DigitChar(d: nat): char
    requires d < 10
  {
    ('0' as int + d) as char
  }

  function DigitOf(c: char): (d: nat)
    requires IsDigit(c)
    ensures d < 10
  {
    c as int - '0' as int
  }

  function DigitsValue(s: string): nat
    requires forall k :: 0 <= k < |s| ==> IsDigit(s[k])
  {
    if |s| == 0 then 0
    else 10 * DigitsValue(s[..|s| - 1]) + DigitOf(s[|s| - 1])
  }

  /** The upper-case form of an ASCII letter; every other character is
      returned unchanged. */
  function ToUpperAscii(c: char): (u: char)
    ensures 'a' <= c <= 'z' ==> 'A' <= u <= 'Z' && u as int == c as int - 32
    ensures !('a' <= c <= 'z') ==> u == c
  {
    if 'a' <= c <= 'z' then (c as int - 32) as char else c
  }

  /** `s.charAt(0).toUpperCase() + s.slice(1)` */
  function Capitalize(s: string): (r: string)
    ensures |r| == |s|
    ensures |s| > 0 ==> r[0] == ToUpperAscii(s[0]) && r[1..] == s[1..]
  {
    if |s| == 0 then "" else [ToUpperAscii(s[0])] + s[1..]
  }

  /** `s.length`: the number of UTF-16 code units of `s`, two for every
      code point outside the Basic Multilingual Plane. */
  function Utf16Length(s: string): (n: nat)
    ensures |s| <= n <= 2 * |s|
    ensures (forall k :: 0 <= k < |s| ==> (s[k] as int) < 0x1_0000) ==> n == |s|
  {
    if |s| == 0 then 0
    else (if (s[0] as int) < 0x1_0000 then 1 else 2) + Utf16Length(s[1..])
  }
}

=== FILE: time_grid.dfy ===
/** The booking form's clock grid: 48 half-hour marks "00:00" … "23:30",
    offered by both time selects, and the `split(':').map(Number)` reading
    that turns a chosen mark back into an hour and a minute. */
module TimeGrid {
  import opened Wrappers
  import Strings

  /** A position on the grid; mark `k` is `k / 2` o'clock plus
      `30 * (k % 2)` minutes. */
  type Slot = k: int | 0 <= k < 48

  function SlotHour(k: Slot): nat { k / 2 }

  function SlotMinute(k: Slot): nat { 30 * (k % 2) }

  /** Minutes after midnight of a grid mark. */
  function SlotMinutesOfDay(k: Slot): (m: nat)
    ensures m == 30 * k
    ensures m == 60 * SlotHour(k) + SlotMinute(k)
  {
    60 * SlotHour(k) + SlotMinute(k)
  }

  /** `String(n).padStart(2, '0')` for `n < 100` */
  function PadTwo(n: nat): (s: string)
    requires n < 100
    ensures |s| == 2 && Strings.IsDigit(s[0]) && Strings.IsDigit(s[1])
  {
    [Strings.DigitChar(n / 10), Strings.DigitChar(n % 10)]
  }

  /** `${hour}:${minute}` with both parts padded to two digits. */
  function ClockLabel(h: nat, m: nat): string
    requires h < 100 && m < 100
  {
    PadTwo(h) + ":" + PadTwo(m)
  }

  function SlotLabel(k: Slot): string {
    ClockLabel(SlotHour(k), SlotMinute(k))
  }

  /** `generateTimeOptions()`: hours 0..23, minutes 0 and 30, in that nested
      order. */
  method GenerateTimeOptions() returns (times: seq<string>)
    ensures |times| == 48
    ensures forall k :: 0 <= k < |times| ==> times[k] == ClockLabel(k / 2, 30 * (k % 2))
  {
    times := [];
    var i := 0;
    while i < 24
      invariant 0 <= i <= 24
      invariant |times| == 2 * i
      invariant forall k :: 0 <= k < |times| ==> times[k] == ClockLabel(k / 2, 30 * (k % 2))
    {
      var j := 0;
      while j < 60
        invariant j == 0 || j == 30 || j == 60
        invariant |times| == 2 * i + j / 30
        invariant forall k :: 0 <= k < |times| ==> times[k] == ClockLabel(k / 2, 30 * (k % 2))
      {
        times := times + [ClockLabel(i, j)];
        j := j + 30;
      }
      i := i + 1;
    }
  }

  /** `Number(s)` on the texts the clock fields hold: a non-empty string of
      decimal digits reads as its value. Any other text gets no value
      (`None`); `Number`'s readings of such text (`""` as 0, blanks around
      digits, exponents) are not modelled. */
  function DecimalValue(s: string): Option<nat> {
    if |s| == 0 || exists k :: 0 <= k < |s| && !Strings.IsDigit(s[k]) then None
    else Some(Strings.DigitsValue(s))
  }

  /** `const [h, m] = s.split(':').map(Number)`: the first two fields of the
      string, each read as a number. */
  function ParseClock(s: string): (r: Option<(nat, nat)>)
    ensures ':' !in s ==> r.None?
  {
    var parts := Strings.Split(s, ':');
    assert ':' !in s ==> |parts| == 1 by {
      if ':' !in s {
        Strings.SplitWithoutSeparator(s, ':');
      }
    }
    if |parts| < 2 then None
    else
      match (DecimalValue(parts[0]), DecimalValue(parts[1]))
      case (Some(h), Some(m)) => Some((h, m))
      case _ => None
  }

  lemma PadTwoValue(n: nat)
    requires n < 100
    ensures DecimalValue(PadTwo(n)) == Some(n)
  {
    var s := PadTwo(n);
    assert forall k :: 0 <= k < |s| ==> Strings.IsDigit(s[k]);
    assert s[..1] == [Strings.DigitChar(n / 10)];
    assert s[..1][..0] == [];
    assert Strings.DigitOf(Strings.DigitChar(n / 10)) == n / 10;
    assert Strings.DigitOf(Strings.DigitChar(n % 10)) == n % 10;
    assert Strings.DigitsValue(s[..1]) == n / 10;
    assert Strings.DigitsValue(s) == 10 * (n / 10) + n % 10;
  }

  /** Reading a label back gives the hour and minute it was written from. */
  lemma {:induction false} ParseClockLabel(h: nat, m: nat)
    requires h < 100 && m < 100
    ensures ParseClock(ClockLabel(h, m)) == Some((h, m))
  {
    var a, b := PadTwo(h), PadTwo(m);
    assert ':' !in a && ':' !in b;
    Strings.SplitAfterPrefix(a, b, ':');
    Strings.SplitWithoutSeparator(b, ':');
    assert a + ":" + b == a + [':'] + b;
    PadTwoValue(h);
    PadTwoValue(m);
  }

  /** Every mark the selects offer parses back to its own hour and minute,
      and the marks are strictly ascending in time of day, thirty minutes
      apart. */
  lemma SlotLabelsParseBack(k: Slot, k': Slot)
    ensures ParseClock(SlotLabel(k)) == Some((SlotHour(k), SlotMinute(k)))
    ensures k < k' ==> SlotMinutesOfDay(k) < SlotMinutesOfDay(k')
    ensures k != k' ==> SlotLabel(k) != SlotLabel(k')
  {
    ParseClockLabel(SlotHour(k), SlotMinute(k));
    ParseClockLabel(SlotHour(k'), SlotMinute(k'));
  }

  /** The form's initial clock values "09:00" and "17:00" are grid marks 18
      and 34. */
  lemma DefaultTimesOnGrid()
    ensures SlotLabel(18) == "09:00"
    ensures SlotLabel(34) == "17:00"
  {
  }
}

=== FILE: wrappers.dfy ===
/** The optional value used wherever the modelled code reads something that
    may be absent: a JavaScript `null`/`undefined`, an unset date, a number
    field that is empty or not a number. */
module Wrappers {

  datatype Option<+T> = None | Some(value: T) {

    /** The value, or `default` when there is none (JavaScript's `x || d`
        for values that are never falsy when present). */
    function GetOr(default: T): T {
      match this
      case Some(v) => v
      case None => default
    }
  }
}
